=== FILE: README.md ===
# random-writer in Dafny

A model of the core of `random-writer`, a small Java program. It reads text,
keeps a unigram count of the words it has seen, and answers each line typed at
its prompt with randomly drawn words. The model has three layers.

- `StringDistribution`: an immutable map from outcome strings to counts plus a
  declared `total`. It offers `addSingle`, `remove`, `combine`, `getCount`,
  `getTotal`, `sampleSpace` and the weighted draw `randomSelect`.
- `RandomFile`: turns text into words. It splits on single whitespace
  characters, lower-cases each piece, strips leading and trailing punctuation,
  and counts the result once.
- `Main`: the decision taken for one input line. An empty line or `see ya`
  stops. A line of digits asks for that many words from the unchanged model.
  Any other line is folded into the model and asks for as many words as it has
  pieces.

## Files

- `results.dfy` (module `Results`): the exceptions the source can throw, and a
  `Result` type that carries them.
- `lex.dfy` (module `Lex`): the order `String.compareTo` imposes. It holds the
  least element of a finite set and the ascending listing that
  `Collections.sort` produces.
- `distribution.dfy` (module `StringDistribution`):
  - `Dist(counts, total)` and `Valid`, the clause of the rep invariant that
    says the counts sum to `total`;
  - the constructors, both as written and as intended;
  - the queries, `addSingle`, `remove` and `combine`, both as written and as
    intended;
  - the walk of `randomSelect`.
- `distribution_laws.dfy` (module `DistributionLaws`):
  - the algebra of the derived distributions;
  - the weighted law of `randomSelect`;
  - the defects of the list and array constructors and of `combine`.
- `random_file.dfy` (module `RandomFile`): `removePunc`, lower-casing,
  `split("\\s")`, `addWord` and the string constructor. It also holds
  `WhitespaceFreeKeys`, the clause of the rep invariant that says no key holds
  whitespace, and which operations keep it.
- `driver.dfy` (module `Driver`): `allDigits`, the digit-string parse, and one
  pass of `Main`'s read loop.
- `scenarios.dfy` (module `Scenarios`): lemmas about fixed texts.

## Modelling decisions

- Counts are `nat`, totals are unbounded, and strings are `seq<char>`.
- The sum of a count map is defined by peeling off the lexicographically
  least key. The lemma `SumAnyOrder` shows that summing along any
  duplicate-free listing gives the same result. This covers the hash order the
  map constructor's loop visits keys in, which `BuildFromCounts` models with an
  arbitrary choice.
- `Math.random()` becomes a parameter `u` with `0 <= u < 1`. The draw is
  `u * total`, taken as an exact real.
- `Valid` is a predicate rather than a subset type, because the list and array
  constructors as written break it (see Findings).
- Thrown exceptions become `Fail(...)` results:
  - `StringIndexOutOfBounds` from `removePunc`;
  - `UnsupportedOperation` from `combine`.

### Behaviour of the code worth noting

- **Punctuation stripping.** `removePunc` strips all eight characters of
  `PUNCTUATION` (`' " . , ; ! ?` and `:`) from both ends, so `"hello!` becomes
  `hello`. Punctuation inside a word stays.
- **Degenerate tokens.** `removePunc` throws `StringIndexOutOfBoundsException` on
  any token that is empty or made only of punctuation. Because of this, a line
  with two spaces in a row crashes (`Driver.DoubleSpaceCrashes`).
- **Splitting.** `split("\\s")` cuts at single whitespace characters, so a run
  of whitespace gives empty pieces. Trailing empty pieces are dropped, and a
  line without whitespace is one piece.
- **Empty draw.** `randomSelect` returns the string `"well that's a problem"`
  on an empty sample space. It returns the same string when the draw exceeds
  the stored mass, which can only happen when the sum clause is broken.
- **Sample space.** `sampleSpace` is the key set of the count map, so a key
  stored with count 0 is part of it (`DistributionLaws.SampleSpaceHoldsZeroCount`).
- **The rep invariant's whitespace clause.** No operation checks it.
  `addSingle` and the map, list and array constructors accept keys with
  whitespace (`RandomFile.AddSingleWhitespace`, `RandomFile.ConstructorsWhitespace`).
  `remove` and the intended `combine` keep it. Words stored by `RandomFile`
  never hold whitespace, because `split("\\s")` has already cut at every
  whitespace character (`Driver.StepKeepsNormalKeys`).
- **Stepping the model.** `Driver.Step` uses the intended `combine`.
  `Driver.StepAsWritten` uses the one as written, which throws on every line
  that yields a word (`Driver.IngestWithCombineAsWrittenThrows`).

## Model

| member | source | states |
|---|---|---|
| StringDistribution.Empty | src/random_writer/StringDistribution.java:22-24 | the empty distribution has an empty sample space, keeps the sum clause, has total 0 and gives every outcome count 0 |
| StringDistribution.FromCounts | src/random_writer/StringDistribution.java:54-62 | the map constructor stores the given counts and its total satisfies the sum clause, independent of visiting order |
| StringDistribution.BuildFromCounts | src/random_writer/StringDistribution.java:54-62 | the constructor's loop, visiting keys in any order, stores exactly the given counts and accumulates their sum as the total |
| StringDistribution.FromEntries | src/random_writer/StringDistribution.java:30-48 | as written, the list and array constructors store every listed outcome with count 1 and declare the number of entries as the total |
| StringDistribution.FromEntriesIntended | src/random_writer/StringDistribution.java:30-48 | the intended constructor counts each outcome by its multiplicity in the entries, keeps the sum clause, and declares the number of entries as the total |
| StringDistribution.Count | src/random_writer/StringDistribution.java:178-181 | `getCount` is the stored count for a present outcome and 0 for an absent one |
| StringDistribution.Total | src/random_writer/StringDistribution.java:139-142 | `getTotal` returns the declared total, which under the sum clause is the sum of the stored counts |
| StringDistribution.SampleSpace | src/random_writer/StringDistribution.java:144-147 | `sampleSpace` holds exactly the stored keys, whatever their counts |
| StringDistribution.AddSingle | src/random_writer/StringDistribution.java:102-111 | `addSingle` raises the outcome's count by one (creating it at 1), leaves other counts alone, adds it to the sample space, re-establishes the sum clause, and adds one to a valid total |
| StringDistribution.Remove | src/random_writer/StringDistribution.java:113-123 | `remove` drops the outcome entirely, keeps every other count, re-establishes the sum clause, and lowers a valid total by the removed count |
| StringDistribution.Combine | src/random_writer/StringDistribution.java:89-100 | intended `combine`: each count is the sum of the two inputs' counts, the sample space is the union, and valid totals add |
| StringDistribution.CombineAsWritten | src/random_writer/StringDistribution.java:89-100 | as written, `combine` throws exactly when the argument has a non-empty sample space, and otherwise returns this distribution's counts |
| StringDistribution.AddAll | src/random_writer/StringDistribution.java:102-111 | repeated `addSingle` over a list adds each element's multiplicity to its count and the list length to a valid total |
| StringDistribution.WalkIndex | src/random_writer/StringDistribution.java:166-174 | the subtract-and-stop walk halts at the first sorted position whose cumulative count reaches the draw, past the end if none does |
| StringDistribution.SelectAt | src/random_writer/StringDistribution.java:157-176 | `randomSelect` on a scaled draw returns the sentinel on an empty sample space or a draw above the stored mass, the least outcome for a draw of 0, and otherwise a member of the sample space |
| StringDistribution.RandomSelect | src/random_writer/StringDistribution.java:157-176 | for any `Math.random()` value, a distribution satisfying the sum clause with at least one outcome yields a member of its sample space, and an empty one yields the sentinel |
| StringDistribution.SumAnyOrder | src/random_writer/StringDistribution.java:54-62 | summing the counts along any duplicate-free listing of the keys gives the same total, so hash order does not matter |
| Lex.SortedSeq | src/random_writer/StringDistribution.java:160-165 | the sorted copy of the sample space lists exactly its elements, once each, in strictly ascending `compareTo` order |
| Lex.Least | src/random_writer/StringDistribution.java:165 | the first element after sorting is in the set and sorts no later than every element |
| DistributionLaws.CountBoundedByTotal | src/random_writer/StringDistribution.java:19 | under the sum clause no count exceeds the total, and the total is 0 exactly when every stored count is 0 |
| DistributionLaws.SampleSpaceHoldsZeroCount | src/random_writer/StringDistribution.java:144-147 | a key stored with count 0 is in the sample space, with `getCount` 0 and total 0 |
| DistributionLaws.RemoveIdempotent | src/random_writer/StringDistribution.java:113-123 | removing an outcome twice equals removing it once |
| DistributionLaws.RemoveAbsent | src/random_writer/StringDistribution.java:113-123 | removing an outcome never seen returns an equal distribution |
| DistributionLaws.RemoveUndoesAddSingle | src/random_writer/StringDistribution.java:102-123 | removing an outcome after adding it equals removing it from the original |
| DistributionLaws.AddSingleCommutes | src/random_writer/StringDistribution.java:102-111 | two `addSingle` calls commute |
| DistributionLaws.CombineCommutative | src/random_writer/StringDistribution.java:89-100 | intended `combine` is commutative |
| DistributionLaws.CombineAssociative | src/random_writer/StringDistribution.java:89-100 | intended `combine` is associative |
| DistributionLaws.CombineEmpty | src/random_writer/StringDistribution.java:89-100 | the empty distribution is a unit for intended `combine`, and combining two empty ones gives an empty one |
| DistributionLaws.CombineIsAddAll | src/random_writer/StringDistribution.java:89-111 | combining with the distribution of a list equals adding its elements one `addSingle` at a time |
| DistributionLaws.CombineAsWrittenThrows | src/random_writer/StringDistribution.java:91-93 | as written, combining with the one-word distribution `{cat: 1}` throws, where the intended result counts `cat` once |
| DistributionLaws.FromEntriesValidIffDistinct | src/random_writer/StringDistribution.java:30-36 | as written, the list constructor keeps the sum clause exactly when the entries are pairwise distinct |
| DistributionLaws.FromEntriesAgreesIffDistinct | src/random_writer/StringDistribution.java:30-48 | the list and array constructors as written agree with the intended counting exactly when the entries are pairwise distinct |
| DistributionLaws.FromEntriesDuplicateCounterexample | src/random_writer/StringDistribution.java:30-36 | entries `[a, a]` give total 2 and count 1, breaking the sum clause; a draw of 0.75 returns the sentinel, where the intended distribution returns `a` |
| DistributionLaws.BeforeIsCum | src/random_writer/StringDistribution.java:165-169 | the mass of the outcomes sorting before the k-th sorted outcome is the walk's cumulative count up to k |
| DistributionLaws.SelectAtFirstCovering | src/random_writer/StringDistribution.java:157-176 | the selected outcome is the first in sorted order whose cumulative count reaches the draw; every earlier outcome falls short |
| DistributionLaws.SelectAtInInterval | src/random_writer/StringDistribution.java:157-176 | a positive draw within the mass lands in the selected outcome's interval (mass before it, that plus its count] |
| DistributionLaws.SelectAtFromInterval | src/random_writer/StringDistribution.java:157-176 | an outcome whose interval holds a positive draw is the one selected |
| DistributionLaws.SelectAtWeighted | src/random_writer/StringDistribution.java:157-176 | weighted law: a positive draw within the mass selects `x` if and only if `x` is in the sample space and the draw lies in its interval of length `getCount(x)` |
| RandomFile.ToLower | src/random_writer/RandomFile.java:45 | lower-casing keeps the length, leaves no upper-case ASCII letter, and changes neither punctuation nor whitespace |
| RandomFile.ToLowerValue | src/random_writer/RandomFile.java:45 | each letter `A`-`Z` becomes the matching lower-case letter, and every other character is unchanged |
| RandomFile.ToLowerIdempotent | src/random_writer/RandomFile.java:45 | lower-casing twice equals lower-casing once |
| RandomFile.LeadEnd | src/random_writer/RandomFile.java:53-56 | the first loop stops at the first non-punctuation character, or at the end of the string |
| RandomFile.TrailEnd | src/random_writer/RandomFile.java:57-60 | the second loop stops just after the last non-punctuation character |
| RandomFile.RemovePunc | src/random_writer/RandomFile.java:50-62 | `removePunc` throws exactly when the input has no non-punctuation character; otherwise it returns the contiguous middle between the first and last non-punctuation characters, which is clean at both ends |
| RandomFile.RemovePuncClean | src/random_writer/RandomFile.java:50-62 | a word with no punctuation at either end comes back unchanged |
| RandomFile.RemovePuncInnerApostrophe | src/random_writer/RandomFile.java:50-62 | the apostrophe inside `don't` is kept, since only the ends are stripped |
| RandomFile.RemovePuncIdempotent | src/random_writer/RandomFile.java:50-62 | stripping a stripped word changes nothing |
| RandomFile.RemovePuncKeeps | src/random_writer/RandomFile.java:50-62 | a property every input character has also holds of every character of the stripped word |
| RandomFile.RemovePuncHello | src/random_writer/RandomFile.java:64-68 | the sample token `"hello!` strips to `hello` |
| RandomFile.NormalizeQuotedApostrophe | src/random_writer/RandomFile.java:45-46 | a quoted, capitalised token such as `'Don't'` is stored with its first letter lower-cased, the outer quotes gone and punctuation inside kept |
| RandomFile.RemovePuncThrows | src/random_writer/RandomFile.java:53 | the empty token and a token of two quote marks both throw `StringIndexOutOfBounds` |
| RandomFile.Pieces | src/random_writer/RandomFile.java:38 | cutting at every whitespace character gives one more piece than there are whitespace characters, and no piece holds whitespace; `PiecesJoinWith` fixes what the pieces are |
| RandomFile.PiecesJoinWith | src/random_writer/RandomFile.java:38 | for every text, joining its pieces with the whitespace characters it was cut at, in order, gives the text back, so the pieces and their order are fixed for tabs and other whitespace too |
| RandomFile.JoinPieces | src/random_writer/RandomFile.java:38 | re-joining the pieces with single spaces restores text whose only whitespace is the space |
| RandomFile.PiecesOfJoin | src/random_writer/RandomFile.java:38 | cutting whitespace-free words joined by single spaces gives the words back |
| RandomFile.Split | src/random_writer/RandomFile.java:38 | `split("\\s")` on text without whitespace gives that text as its only piece (`[""]` for `""`); otherwise it gives the cut pieces with every trailing empty one dropped, so the result is empty or ends in a non-empty piece; no piece holds whitespace |
| RandomFile.SplitOfJoin | src/random_writer/RandomFile.java:38 | splitting whitespace-free words joined by single spaces gives the words back when the last is non-empty |
| RandomFile.Normalize | src/random_writer/RandomFile.java:45-46 | the stored form of a token fails exactly when the token has no non-punctuation character, and otherwise is clean, has no upper-case letter, and has no whitespace when the token had none |
| RandomFile.NormalizeMiddle | src/random_writer/RandomFile.java:45-46 | the stored form of a token is the lower-cased middle of the token between its first and last non-punctuation characters |
| RandomFile.NormalizeCommutes | src/random_writer/RandomFile.java:45-46 | lower-casing then stripping fails exactly when stripping alone fails, and otherwise equals stripping then lower-casing |
| RandomFile.LowerStrippedAt | src/random_writer/RandomFile.java:45-62 | lower-casing moves no punctuation, so the stripped middle of the lower-cased token sits where the token's own middle does, and is its lower case |
| RandomFile.StrippedAtUnique | src/random_writer/RandomFile.java:50-62 | the bounds left by stripping leading and trailing punctuation are unique |
| RandomFile.AddWord | src/random_writer/RandomFile.java:44-48 | `addWord` throws exactly for a token with no non-punctuation character, and otherwise counts the normalised word once more, leaving other counts alone and adding one to a valid total |
| RandomFile.AddWords | src/random_writer/RandomFile.java:39-41 | feeding tokens in turn succeeds exactly when every token has a non-punctuation character; each count grows by the number of tokens normalising to it, and the total by the number of tokens |
| RandomFile.AddWordsNormalKeys | src/random_writer/StringDistribution.java:17-18 | words fed from whitespace-free tokens keep every stored key clean, lower-case and free of whitespace |
| RandomFile.AddSingleWhitespace | src/random_writer/StringDistribution.java:102-111 | `addSingle` never checks the whitespace clause: afterwards it holds exactly when it held before and the added outcome has no whitespace |
| RandomFile.AddSingleAdmitsSpace | src/random_writer/StringDistribution.java:102-111 | `addSingle` stores the outcome `a b`, breaking the whitespace clause |
| RandomFile.RemoveWhitespace | src/random_writer/StringDistribution.java:113-123 | `remove` keeps the whitespace clause |
| RandomFile.CombineWhitespace | src/random_writer/StringDistribution.java:89-100 | intended `combine` has the whitespace clause exactly when both inputs have it |
| RandomFile.ConstructorsWhitespace | src/random_writer/StringDistribution.java:30-62 | the map, list and array constructors keep the whitespace clause exactly when no given key holds whitespace |
| RandomFile.FromText | src/random_writer/RandomFile.java:37-42 | the string constructor succeeds exactly when every piece of the split has a non-punctuation character; each word's count is the number of pieces normalising to it, the sum clause holds, the total is the number of pieces, and the keys are normalised |
| Driver.AllDigits | src/random_writer/Main.java:65-72 | `allDigits` is true exactly when every character is a decimal digit (true for the empty string) |
| Driver.DecimalValue | src/random_writer/Main.java:55 | the number a digit string denotes is below ten to the power of its length; `DecimalRoundTrip` and `LeadingZero` together fix its value for every digit string |
| Driver.DecimalRoundTrip | src/random_writer/Main.java:55 | reading back the decimal spelling of a number gives the number |
| Driver.LeadingZero | src/random_writer/Main.java:55 | a leading zero does not change the value, so `05` reads as 5 and every digit string reads as the number its digits spell |
| Driver.Classify | src/random_writer/Main.java:49-59 | an empty line or `see ya` stops; a non-empty all-digit line is a word count with its decimal value; anything else is text to ingest |
| Driver.Step | src/random_writer/Main.java:45-62 | one pass stops exactly on the exit lines; a digit line keeps the model and asks for its value; a text line crashes exactly when a piece has no non-punctuation character, and otherwise adds the pieces' words to the model and asks for as many words as there are pieces |
| Driver.StepAsWritten | src/random_writer/Main.java:45-62 | with `combine` as written: one pass stops exactly on the exit lines; a digit line keeps the model and asks for its value; a text line with a piece lacking a non-punctuation character throws `StringIndexOutOfBoundsException`; a text line with no pieces (only whitespace) keeps every count and the sample space, with a total that again satisfies the sum clause |
| Driver.IngestWithCombineAsWrittenThrows | src/random_writer/Main.java:57 | every text line whose pieces all have a non-punctuation character, and which has at least one piece, makes the pass as written throw `UnsupportedOperationException` |
| Driver.StepKeepsNormalKeys | src/random_writer/Main.java:45-62 | a pass that does not stop or crash keeps every stored word clean, lower-case and free of whitespace, and so keeps the whitespace clause |
| Driver.DoubleSpaceCrashes | src/random_writer/Main.java:57-58 | the line `a  b` splits into `a`, an empty piece and `b`, and the empty piece makes the pass throw |
| Scenarios.SplitThreeWords | src/random_writer/RandomFile.java:38 | three clean words separated by single spaces split into those words |
| Scenarios.CatDogCat | src/random_writer/RandomFile.java:37-42 | the text `cat dog cat` gives sample space `{cat, dog}` with counts 2 and 1 and total 3 |
| Scenarios.CombineTwoTexts | src/random_writer/StringDistribution.java:89-100 | pooling the models of `a b` and `b c` counts `a` once, `b` twice and `c` once, with total 4 |

## Left out

- `RandomFile(File)`: file I/O. Its read loop never reads a second line. On a
  non-empty file it loops forever when every piece of the first line strips
  cleanly. Otherwise `addWord` throws `StringIndexOutOfBoundsException` on the
  first pass, for example on a blank first line, a leading space or a bare `,`.
  The `catch (IOException)` does not catch that exception. The constructor is
  not modelled.
- `Main`'s start-up loop over file arguments, reading from standard input, and
  printing: I/O.
- `randomOutput`: the generator calls it, but it is not defined in the source,
  so text generation and capitalisation are not modelled.
- `joint`, the frequency constructor `StringDistribution(Map<String, Double>, int)`
  and `getProbability`: these work in floating point and rounding.
- `toString`: a formatting concern only.
- `Distribution.java`: this class, which `StringDistribution` names in its
  `implements` clause, is not part of this model. Its operations appear as
  functions of the `StringDistribution` module.
- Driver.Step: folds a line in with the intended `combine`, not the one as
  written, which throws (see `Driver.StepAsWritten`). `RandomFile.java` defines
  neither `combine` nor a `RandomFile(StringDistribution)` constructor, though
  `Main.java` calls both at lines 33, 37 and 57. The model assumes they delegate
  to `StringDistribution.combine` on the wrapped distribution.
- `RandomFile`'s field type: the class stores a `Distribution` and calls
  `put`/`getOrDefault` on it, which does not compile as written.
  `RandomFile.AddWord` takes the evident meaning, which is `addSingle` on a
  `StringDistribution`.
- `Driver.DecimalValue`: does not model `(int) Double.parseDouble` on very long
  digit strings. Past 2^53 the parse rounds, and past `Integer.MAX_VALUE` the
  cast saturates; the model keeps the exact value.
- `StringDistribution.AddSingle`: does not model the 32-bit `int` wrap-around of
  counts and totals. Counts and totals are unbounded `nat`.
- `StringDistribution.BuildFromCounts`: negative counts, which a Java
  `Map<String, Integer>` could carry, are excluded by the `nat` type.
- `RandomFile.ToLower`: assumes a default locale in which A-Z fold to a-z and
  no other letter changes. `toLowerCase()` depends on the locale: in a Turkish
  or Azeri locale it maps `I` to the dotless `ı`. Java's folding of non-ASCII
  letters is not modelled either.
- `Lex.LexLe`: compares `char` values. That is UTF-16 code units in Java and
  code points in Dafny, so the two orders can differ on surrogate pairs.
- `StringDistribution.RandomSelect`: the draw is an exact real. The rounding of
  `Math.random() * total` and of the repeated subtraction in `double` is not
  modelled.

## Findings

| source | as written | input that shows it | evidently intended | confidence | as-written member | corrected member |
|---|---|---|---|---|---|---|
| src/random_writer/StringDistribution.java:33 | the list and array constructors look up `entries` (the whole collection) instead of `outcome`, so every outcome is stored with count 1 while the total is the number of entries | entries `["a", "a"]`: total 2, count of `a` 1, sum clause broken, and a draw of 0.75 returns `"well that's a problem"` | count each outcome once per occurrence, so the counts sum to the total | high (not executed) | StringDistribution.FromEntries, DistributionLaws.FromEntriesDuplicateCounterexample | StringDistribution.FromEntriesIntended |
| src/random_writer/StringDistribution.java:92-93 | `combine` calls `addAll` on the key-set view returned by `sampleSpace()`, which throws `UnsupportedOperationException` whenever the argument has any outcome | combining any distribution with `{cat: 1}` | pool the two distributions, summing counts over the union of the sample spaces | high (not executed) | StringDistribution.CombineAsWritten, DistributionLaws.CombineAsWrittenThrows | StringDistribution.Combine |

=== FILE: distribution.dfy ===
/**
  `StringDistribution`: an immutable map from word to occurrence count, with the
  total number of observations cached beside it. Every operation builds a new
  distribution; none changes its argument.
 */
module StringDistribution {
  import opened Lex
  import opened Results

  /** What `randomSelect` returns when its walk runs past the last outcome. */
  const Sentinel: string := "well that's a problem"

  /** The `probabilities` map and the cached `total`. The rep invariant has two
      clauses: the values sum to the total (`Valid` here, a predicate rather than
      a type constraint because the list and array constructors break it), and no
      key holds whitespace (`RandomFile.WhitespaceFreeKeys`). */
  datatype Dist = Dist(counts: map<string, nat>, total: nat)

  /** `getOrDefault(x, 0)` on a count map. */
  function Get(m: map<string, nat>, x: string): nat {
    if x in m then m[x] else 0
  }

  /** The sum of all counts in `m`, peeling the least key at each step. */
  function SumCounts(m: map<string, nat>): nat
    decreases |m.Keys|
  {
    if m.Keys == {} then 0
    else
      var k := Least(m.Keys);
      var rest := m - {k};
      assert rest.Keys == m.Keys - {k};
      m[k] + SumCounts(rest)
  }

  /** The sum clause of the rep invariant: the values of the count map sum to the
      cached total. */
  predicate Valid(d: Dist) {
    d.total == SumCounts(d.counts)
  }

  predicate Distinct(q: seq<string>) {
    forall i, j :: 0 <= i < j < |q| ==> q[i] != q[j]
  }

  /** Sum of the counts of the outcomes listed in `q`, in that order. */
  function SeqSum(q: seq<string>, m: map<string, nat>): nat {
    if q == [] then 0 else Get(m, q[0]) + SeqSum(q[1..], m)
  }

  /** Cumulative count of the first `n` outcomes of `q`. */
  function Cum(q: seq<string>, m: map<string, nat>, n: nat): nat
    requires n <= |q|
  {
    SeqSum(q[..n], m)
  }

  // ---------------------------------------------------------------------------
  // Sums over count maps
  // ---------------------------------------------------------------------------

  /** Any key can be peeled off first: the sum does not depend on the order. */
  lemma {:induction false} SumRemoveKey(m: map<string, nat>, k: string)
    requires k in m
    ensures SumCounts(m) == m[k] + SumCounts(m - {k})
    decreases |m.Keys|
  {
    var l := Least(m.Keys);
    if k != l {
      var ml := m - {l};
      assert ml.Keys == m.Keys - {l};
      SumRemoveKey(ml, k);
      var mk := m - {k};
      assert mk.Keys == m.Keys - {k};
      assert IsLeast(l, mk.Keys);
      LeastUnique(l, mk.Keys);
      assert ml - {k} == mk - {l};
    }
  }

  /** Setting one key to `v` changes the sum by `v` minus that key's old count. */
  lemma SumUpdate(m: map<string, nat>, k: string, v: nat)
    ensures SumCounts(m[k := v]) + Get(m, k) == SumCounts(m) + v
  {
    var m' := m[k := v];
    SumRemoveKey(m', k);
    assert m' - {k} == m - {k};
    if k in m {
      SumRemoveKey(m, k);
    } else {
      assert m - {k} == m;
    }
  }

  /** Removing a key lowers the sum by exactly that key's count. */
  lemma SumRemove(m: map<string, nat>, k: string)
    ensures SumCounts(m - {k}) + Get(m, k) == SumCounts(m)
  {
    if k in m {
      SumRemoveKey(m, k);
    } else {
      assert m - {k} == m;
    }
  }

  lemma {:induction false} SumOnes(m: map<string, nat>)
    requires forall k :: k in m ==> m[k] == 1
    ensures SumCounts(m) == |m.Keys|
    decreases |m.Keys|
  {
    if m.Keys != {} {
      var l := Least(m.Keys);
      assert (m - {l}).Keys == m.Keys - {l};
      SumOnes(m - {l});
    }
  }

  /** Pointwise sum of two count maps over the union of their keys. */
  function Pointwise(a: map<string, nat>, b: map<string, nat>): (c: map<string, nat>)
    ensures c.Keys == a.Keys + b.Keys
    ensures forall x :: x in c ==> c[x] == Get(a, x) + Get(b, x)
  {
    map k | k in a.Keys + b.Keys :: Get(a, k) + Get(b, k)
  }

  lemma PointwiseRemove(a: map<string, nat>, b: map<string, nat>, k: string)
    ensures Pointwise(a, b) - {k} == Pointwise(a - {k}, b - {k})
  {
    var c := Pointwise(a, b);
    var l := c - {k};
    var r := Pointwise(a - {k}, b - {k});
    assert l.Keys == r.Keys;
    forall x | x in l ensures l[x] == r[x] {
      assert x != k;
      assert l[x] == c[x] == Get(a, x) + Get(b, x);
      assert Get(a - {k}, x) == Get(a, x) && Get(b - {k}, x) == Get(b, x);
    }
  }

  lemma {:induction false} SumPointwise(a: map<string, nat>, b: map<string, nat>)
    ensures SumCounts(Pointwise(a, b)) == SumCounts(a) + SumCounts(b)
    decreases |a.Keys + b.Keys|
  {
    var c := Pointwise(a, b);
    if c.Keys == {} {
      assert a.Keys == {} && b.Keys == {};
    } else {
      var k :| k in c.Keys;
      SumRemoveKey(c, k);
      PointwiseRemove(a, b, k);
      SumPointwise(a - {k}, b - {k});
      SumRemove(a, k);
      SumRemove(b, k);
    }
  }

  lemma {:induction false} SeqSumAgree(q: seq<string>, m: map<string, nat>, m': map<string, nat>)
    requires forall i :: 0 <= i < |q| ==> Get(m, q[i]) == Get(m', q[i])
    ensures SeqSum(q, m) == SeqSum(q, m')
    decreases |q|
  {
    if q != [] {
      SeqSumAgree(q[1..], m, m');
    }
  }

  /** The total does not depend on the iteration order: summing the counts along
      any duplicate-free listing of the keys gives `SumCounts`. */
  lemma {:induction false} SumAnyOrder(q: seq<string>, m: map<string, nat>)
    requires Distinct(q)
    requires forall x :: x in q <==> x in m
    ensures SeqSum(q, m) == SumCounts(m)
    decreases |q|
  {
    if q == [] {
      assert forall x :: x !in m;
      assert m.Keys == {};
    } else {
      var x := q[0];
      var m' := m - {x};
      forall y ensures y in q[1..] <==> y in m' {
        if y in q[1..] {
          var j :| 1 <= j < |q| && q[j] == y;
          assert q[0] != q[j];
        }
        if y in m' {
          assert y in q && y != q[0];
          var j :| 0 <= j < |q| && q[j] == y;
          assert q[1..][j - 1] == y;
        }
      }
      SumAnyOrder(q[1..], m');
      forall i | 0 <= i < |q[1..]| ensures Get(m, q[1..][i]) == Get(m', q[1..][i]) {
        assert q[0] != q[i + 1];
      }
      SeqSumAgree(q[1..], m, m');
      SumRemoveKey(m, x);
    }
  }

  lemma SortedDistinct(q: seq<string>)
    requires StrictlySorted(q)
    ensures Distinct(q)
  {
  }

  // ---------------------------------------------------------------------------
  // Cumulative counts along a listing
  // ---------------------------------------------------------------------------

  lemma {:induction false} SeqSumAppend(p: seq<string>, x: string, m: map<string, nat>)
    ensures SeqSum(p + [x], m) == SeqSum(p, m) + Get(m, x)
    decreases |p|
  {
    if p != [] {
      assert (p + [x])[1..] == p[1..] + [x];
      SeqSumAppend(p[1..], x, m);
    }
  }

  lemma CumStep(q: seq<string>, m: map<string, nat>, n: nat)
    requires n < |q|
    ensures Cum(q, m, n + 1) == Cum(q, m, n) + Get(m, q[n])
  {
    assert q[..n + 1] == q[..n] + [q[n]];
    SeqSumAppend(q[..n], q[n], m);
  }

  lemma {:induction false} CumMonotone(q: seq<string>, m: map<string, nat>, i: nat, j: nat)
    requires i <= j <= |q|
    ensures Cum(q, m, i) <= Cum(q, m, j)
    decreases j - i
  {
    if i < j {
      CumStep(q, m, j - 1);
      CumMonotone(q, m, i, j - 1);
    }
  }

  lemma CumShiftAll(q: seq<string>, m: map<string, nat>)
    requires q != []
    ensures forall n :: 1 <= n <= |q| ==> Cum(q, m, n) == Get(m, q[0]) + Cum(q[1..], m, n - 1)
  {
    forall n | 1 <= n <= |q| ensures Cum(q, m, n) == Get(m, q[0]) + Cum(q[1..], m, n - 1) {
      assert q[..n][1..] == q[1..][..n - 1];
    }
  }

  // ---------------------------------------------------------------------------
  // Constructors
  // ---------------------------------------------------------------------------

  /** `new StringDistribution()`. */
  function Empty(): (d: Dist)
    ensures Valid(d) && d.total == 0
    ensures forall x :: Count(d, x) == 0
    ensures SampleSpace(d) == {}
  {
    Dist(map[], 0)
  }

  /** `new StringDistribution(Map<String, Integer>)`, with the total defined
      order-independently (see `BuildFromCounts` for the loop itself). */
  function FromCounts(results: map<string, nat>): (d: Dist)
    ensures d.counts == results
    ensures Valid(d)
  {
    Dist(results, SumCounts(results))
  }

  /** One iteration of the constructor's loop: storing a not-yet-visited key's
      count extends the copied part of the map and adds the count to its sum. */
  lemma BuildStep(results: map<string, nat>, copied: map<string, nat>, remaining: set<string>, key: string)
    requires remaining <= results.Keys && key in remaining
    requires copied.Keys == results.Keys - remaining
    requires forall k :: k in copied ==> copied[k] == results[k]
    ensures copied[key := results[key]].Keys == results.Keys - (remaining - {key})
    ensures forall k :: k in copied[key := results[key]] ==> copied[key := results[key]][k] == results[k]
    ensures SumCounts(copied[key := results[key]]) == SumCounts(copied) + results[key]
  {
    assert key !in copied;
    SumUpdate(copied, key, results[key]);
  }

  /** The constructor's loop: visits the keys in an arbitrary (hash) order,
      storing each count and accumulating the running total. */
  method BuildFromCounts(results: map<string, nat>) returns (d: Dist)
    ensures d.counts == results
    ensures d.total == SumCounts(results)
  {
    var probabilities: map<string, nat> := map[];
    var totalResults: nat := 0;
    var remaining := results.Keys;
    while remaining != {}
      invariant remaining <= results.Keys
      invariant probabilities.Keys == results.Keys - remaining
      invariant forall k :: k in probabilities ==> probabilities[k] == results[k]
      invariant totalResults == SumCounts(probabilities)
      decreases |remaining|
    {
      var key :| key in remaining;
      var outcomes := results[key];
      BuildStep(results, probabilities, remaining, key);
      totalResults := totalResults + outcomes;
      probabilities := probabilities[key := outcomes];
      remaining := remaining - {key};
    }
    d := Dist(probabilities, totalResults);
  }

  /** `new StringDistribution(List<String>)` and `new StringDistribution(String[])`
      as written: the lookup uses the whole collection as the key, which is never
      present, so every listed outcome is stored with count 1, while the total is
      the number of entries. */
  function FromEntries(entries: seq<string>): (d: Dist)
    ensures d.total == |entries|
    ensures forall x :: x in d.counts <==> x in entries
    ensures forall x :: x in d.counts ==> d.counts[x] == 1
  {
    Dist(map o | o in entries :: 1, |entries|)
  }

  /** What the list and array constructors evidently intend: one `addSingle` per
      entry, starting from the empty distribution. */
  function FromEntriesIntended(entries: seq<string>): (d: Dist)
    ensures Valid(d) && d.total == |entries|
    ensures forall x :: Count(d, x) == multiset(entries)[x]
    ensures forall x :: x in d.counts <==> x in entries
  {
    AddAll(Empty(), entries)
  }

  // ---------------------------------------------------------------------------
  // Queries
  // ---------------------------------------------------------------------------

  /** `getCount`: the stored count, or 0 for an outcome never seen. */
  function Count(d: Dist, x: string): (c: nat)
    ensures x in d.counts ==> c == d.counts[x]
    ensures x !in d.counts ==> c == 0
  {
    Get(d.counts, x)
  }

  /** `getTotal`: the cached total, which is the sum of the stored counts when
      the sum clause holds. */
  function Total(d: Dist): (t: nat)
    ensures Valid(d) ==> t == SumCounts(d.counts)
  {
    d.total
  }

  /** `sampleSpace`: the key set of the count map. Every outcome outside it has
      count 0; a key stored with count 0 is still inside it. */
  function SampleSpace(d: Dist): (s: set<string>)
    ensures forall x :: x in s <==> x in d.counts
  {
    d.counts.Keys
  }

  // ---------------------------------------------------------------------------
  // Derived distributions
  // ---------------------------------------------------------------------------

  /** `addSingle`: copies the counts, bumps `result` by one, and rebuilds through
      the map constructor (so the new total is recounted). */
  function AddSingle(d: Dist, result: string): (r: Dist)
    ensures Count(r, result) == Count(d, result) + 1
    ensures forall y :: y != result ==> Count(r, y) == Count(d, y)
    ensures SampleSpace(r) == SampleSpace(d) + {result}
    ensures Valid(r)
    ensures Valid(d) ==> Total(r) == Total(d) + 1
  {
    SumUpdate(d.counts, result, Count(d, result) + 1);
    FromCounts(d.counts[result := Count(d, result) + 1])
  }

  /** `remove`: every key except `outcome` is copied, then rebuilt through the
      map constructor. */
  function Remove(d: Dist, outcome: string): (r: Dist)
    ensures outcome !in SampleSpace(r) && Count(r, outcome) == 0
    ensures forall y :: y != outcome ==> Count(r, y) == Count(d, y)
    ensures SampleSpace(r) == SampleSpace(d) - {outcome}
    ensures Valid(r)
    ensures Valid(d) ==> Total(r) == Total(d) - Count(d, outcome)
  {
    SumRemove(d.counts, outcome);
    FromCounts(d.counts - {outcome})
  }

  /** `combine` as evidently intended: pool the observations of both. */
  function Combine(a: Dist, b: Dist): (r: Dist)
    ensures forall x :: Count(r, x) == Count(a, x) + Count(b, x)
    ensures SampleSpace(r) == SampleSpace(a) + SampleSpace(b)
    ensures Valid(r)
    ensures Valid(a) && Valid(b) ==> Total(r) == Total(a) + Total(b)
  {
    SumPointwise(a.counts, b.counts);
    FromCounts(Pointwise(a.counts, b.counts))
  }

  /** `combine` as written: `sampleSpace()` hands back the live key-set view of
      the `HashMap`, and `addAll` on that view throws as soon as it has an
      element to add. With nothing to add it falls through to the pooled map. */
  function CombineAsWritten(a: Dist, b: Dist): (r: Result<Dist>)
    ensures r.Fail? <==> SampleSpace(b) != {}
    ensures r.Fail? ==> r.error == UnsupportedOperation
    ensures r.Ok? ==> r.value.counts == a.counts && Valid(r.value)
  {
    if SampleSpace(b) != {} then Fail(UnsupportedOperation)
    else
      var c := Combine(a, b);
      assert c.counts == a.counts;
      Ok(c)
  }

  /** One `addSingle` per element of `xs`, left to right. */
  function AddAll(d: Dist, xs: seq<string>): (r: Dist)
    ensures forall x :: Count(r, x) == Count(d, x) + multiset(xs)[x]
    ensures forall x :: x in r.counts <==> x in d.counts || x in xs
    ensures xs != [] ==> Valid(r)
    ensures Valid(d) ==> Valid(r) && Total(r) == Total(d) + |xs|
    decreases |xs|
  {
    if xs == [] then d
    else
      assert xs == [xs[0]] + xs[1..];
      AddAll(AddSingle(d, xs[0]), xs[1..])
  }

  // ---------------------------------------------------------------------------
  // Weighted draw
  // ---------------------------------------------------------------------------

  /** The walk of `randomSelect` over the sorted outcomes `q`: subtract each
      count from the remainder and stop at the first outcome where it drops to
      zero or below. Returns the position it stops at, `|q|` if it never does. */
  function WalkIndex(q: seq<string>, m: map<string, nat>, remainder: real): (i: nat)
    ensures i <= |q|
    ensures i < |q| ==> remainder <= Cum(q, m, i + 1) as real
    ensures forall j :: 1 <= j <= i ==> (Cum(q, m, j) as real) < remainder
    decreases |q|
  {
    if q == [] then 0
    else
      CumShiftAll(q, m);
      var next := remainder - Get(m, q[0]) as real;
      if next <= 0.0 then 0
      else 1 + WalkIndex(q[1..], m, next)
  }

  /** Where the walk stops: within the listing when the draw does not exceed the
      listed mass, past its end otherwise, and at the first outcome for a draw
      of zero or less. */
  lemma WalkLands(q: seq<string>, m: map<string, nat>, r: real)
    ensures q != [] && r <= Cum(q, m, |q|) as real ==> WalkIndex(q, m, r) < |q|
    ensures r > Cum(q, m, |q|) as real ==> WalkIndex(q, m, r) == |q|
    ensures q != [] && r <= 0.0 ==> WalkIndex(q, m, r) == 0
  {
    var i := WalkIndex(q, m, r);
    if i < |q| {
      CumMonotone(q, m, i + 1, |q|);
    }
  }

  /** Summing the sorted outcomes gives the mass of the whole map. */
  lemma SortedMass(m: map<string, nat>)
    ensures Cum(SortedSeq(m.Keys), m, |m.Keys|) == SumCounts(m)
  {
    var q := SortedSeq(m.Keys);
    SortedDistinct(q);
    SumAnyOrder(q, m);
    CumFull(q, m);
  }

  /** The cumulative count through the whole listing is its sum. */
  lemma CumFull(q: seq<string>, m: map<string, nat>)
    ensures Cum(q, m, |q|) == SeqSum(q, m)
  {
    assert q[..|q|] == q;
  }

  /** `randomSelect` for a given scaled draw `r` (`Math.random() * total`). */
  function SelectAt(d: Dist, r: real): (x: string)
    ensures SampleSpace(d) == {} ==> x == Sentinel
    ensures SampleSpace(d) != {} && r <= 0.0 ==> x == Least(SampleSpace(d))
    ensures SampleSpace(d) != {} && r <= SumCounts(d.counts) as real ==> x in SampleSpace(d)
    ensures r > SumCounts(d.counts) as real ==> x == Sentinel
  {
    var q := SortedSeq(d.counts.Keys);
    SortedMass(d.counts);
    WalkLands(q, d.counts, r);
    var i := WalkIndex(q, d.counts, r);
    if i < |q| then q[i] else Sentinel
  }

  lemma DrawBounds(u: real, t: nat)
    requires 0.0 <= u < 1.0
    ensures 0.0 <= u * (t as real) <= t as real
  {
    assert (1.0 - u) * (t as real) >= 0.0;
  }

  /** `randomSelect`, given the value `u` of `Math.random()`. */
  function RandomSelect(d: Dist, u: real): (x: string)
    requires 0.0 <= u < 1.0
    ensures SampleSpace(d) == {} ==> x == Sentinel
    ensures Valid(d) && SampleSpace(d) != {} ==> x in SampleSpace(d)
  {
    var r := u * (d.total as real);
    DrawBounds(u, d.total);
    assert r <= d.total as real;
    assert Valid(d) ==> r <= SumCounts(d.counts) as real;
    SelectAt(d, r)
  }

  /** Mass of the outcomes that sort strictly before `x`. */
  function Before(d: Dist, x: string): nat {
    SumCounts(map y | y in d.counts && LexLt(y, x) :: d.counts[y])
  }
}

=== FILE: distribution_laws.dfy ===
/**
  Laws of `StringDistribution` that relate several operations: the algebra of
  `addSingle`, `remove` and `combine`, the weighted law of `randomSelect`, and the
  defect of the list and array constructors.
 */
module DistributionLaws {
  import opened Lex
  import opened Results
  import opened StringDistribution

  // ---------------------------------------------------------------------------
  // Counts and totals
  // ---------------------------------------------------------------------------

  /** In a distribution that keeps the sum clause of its rep invariant no single
      count exceeds the total, and the total is zero exactly when every stored
      count is zero. */
  lemma CountBoundedByTotal(d: Dist, x: string)
    requires Valid(d)
    ensures Count(d, x) <= Total(d)
    ensures Total(d) == 0 <==> forall y :: y in SampleSpace(d) ==> Count(d, y) == 0
  {
    SumRemove(d.counts, x);
    if Total(d) == 0 {
      forall y | y in SampleSpace(d) ensures Count(d, y) == 0 {
        SumRemove(d.counts, y);
      }
    } else if forall y :: y in SampleSpace(d) ==> Count(d, y) == 0 {
      forall k | k in d.counts ensures d.counts[k] == 0 {
        assert Count(d, k) == 0;
      }
      SumZeros(d.counts);
    }
  }

  lemma {:induction false} SumZeros(m: map<string, nat>)
    requires forall k :: k in m ==> m[k] == 0
    ensures SumCounts(m) == 0
    decreases |m.Keys|
  {
    if m.Keys != {} {
      var l := Least(m.Keys);
      assert (m - {l}).Keys == m.Keys - {l};
      SumZeros(m - {l});
    }
  }

  /** The sample space is the key set, not the set of outcomes with a non-zero
      count: the map constructor keeps a key stored with count 0. */
  lemma SampleSpaceHoldsZeroCount()
    ensures var d := FromCounts(map["a" := 0]);
            "a" in SampleSpace(d) && Count(d, "a") == 0 && Total(d) == 0
  {
    SumZeros(map["a" := 0]);
  }

  /** Two distributions built by the map constructor from the same counts are equal. */
  lemma SameCounts(a: Dist, b: Dist)
    requires Valid(a) && Valid(b)
    requires forall x :: Count(a, x) == Count(b, x)
    requires SampleSpace(a) == SampleSpace(b)
    ensures a == b
  {
    assert a.counts.Keys == b.counts.Keys;
    forall x | x in a.counts ensures a.counts[x] == b.counts[x] {
      assert Count(a, x) == Count(b, x);
    }
    assert a.counts == b.counts;
  }

  // ---------------------------------------------------------------------------
  // addSingle and remove
  // ---------------------------------------------------------------------------

  /** Removing an outcome twice is the same as removing it once. */
  lemma RemoveIdempotent(d: Dist, x: string)
    ensures Remove(Remove(d, x), x) == Remove(d, x)
  {
    SameCounts(Remove(Remove(d, x), x), Remove(d, x));
  }

  /** Removing an outcome that was never observed gives back an equal
      distribution, provided the original kept the sum clause. */
  lemma RemoveAbsent(d: Dist, x: string)
    requires Valid(d) && x !in SampleSpace(d)
    ensures Remove(d, x) == d
  {
    SameCounts(Remove(d, x), d);
  }

  /** Removing an outcome wipes out every observation of it, including one just
      added. */
  lemma RemoveUndoesAddSingle(d: Dist, x: string)
    ensures Remove(AddSingle(d, x), x) == Remove(d, x)
  {
    SameCounts(Remove(AddSingle(d, x), x), Remove(d, x));
  }

  /** Adding two observations commutes. */
  lemma AddSingleCommutes(d: Dist, x: string, y: string)
    ensures AddSingle(AddSingle(d, x), y) == AddSingle(AddSingle(d, y), x)
  {
    SameCounts(AddSingle(AddSingle(d, x), y), AddSingle(AddSingle(d, y), x));
  }

  // ---------------------------------------------------------------------------
  // combine
  // ---------------------------------------------------------------------------

  lemma CombineCommutative(a: Dist, b: Dist)
    ensures Combine(a, b) == Combine(b, a)
  {
    SameCounts(Combine(a, b), Combine(b, a));
  }

  lemma CombineAssociative(a: Dist, b: Dist, c: Dist)
    ensures Combine(Combine(a, b), c) == Combine(a, Combine(b, c))
  {
    SameCounts(Combine(Combine(a, b), c), Combine(a, Combine(b, c)));
  }

  /** The empty distribution is a unit of `combine`, and combining two empty
      distributions yields an empty one. */
  lemma CombineEmpty(a: Dist)
    requires Valid(a)
    ensures Combine(a, Empty()) == a
    ensures Combine(Empty(), Empty()) == Empty()
  {
    SameCounts(Combine(a, Empty()), a);
    SameCounts(Combine(Empty(), Empty()), Empty());
  }

  /** Combining with a distribution that pools `xs` is the same as adding the
      elements of `xs` one at a time. */
  lemma CombineIsAddAll(a: Dist, xs: seq<string>)
    requires Valid(a)
    ensures Combine(a, FromEntriesIntended(xs)) == AddAll(a, xs)
  {
    SameCounts(Combine(a, FromEntriesIntended(xs)), AddAll(a, xs));
  }

  /** As written, `combine` throws on any argument with a non-empty sample space,
      e.g. on the distribution of a single word; the intended result holds that
      word once. */
  lemma CombineAsWrittenThrows()
    ensures CombineAsWritten(Empty(), AddSingle(Empty(), "cat")) == Fail(UnsupportedOperation)
    ensures Count(Combine(Empty(), AddSingle(Empty(), "cat")), "cat") == 1
  {
    assert "cat" in SampleSpace(AddSingle(Empty(), "cat"));
  }

  // ---------------------------------------------------------------------------
  // The list and array constructors
  // ---------------------------------------------------------------------------

  function Elements(q: seq<string>): set<string> {
    set x | x in q
  }

  lemma {:induction false} ElementsCard(q: seq<string>)
    ensures |Elements(q)| <= |q|
    ensures |Elements(q)| == |q| <==> Distinct(q)
    decreases |q|
  {
    if q != [] {
      ElementsCard(q[1..]);
      assert Elements(q) == {q[0]} + Elements(q[1..]);
      if q[0] in q[1..] {
        assert Elements(q) == Elements(q[1..]);
        assert !Distinct(q) by {
          var j :| 0 <= j < |q[1..]| && q[1..][j] == q[0];
          assert q[0] == q[j + 1];
        }
      } else {
        assert |Elements(q)| == 1 + |Elements(q[1..])|;
        if Distinct(q[1..]) {
          forall i, j | 0 <= i < j < |q| ensures q[i] != q[j] {
            if i == 0 {
              assert q[j] == q[1..][j - 1];
            } else {
              assert q[i] == q[1..][i - 1] && q[j] == q[1..][j - 1];
            }
          }
        } else {
          var i, j :| 0 <= i < j < |q[1..]| && q[1..][i] == q[1..][j];
          assert q[i + 1] == q[j + 1];
        }
      }
    } else {
      assert Elements(q) == {};
    }
  }

  /** As written, the list and array constructors keep the sum clause exactly
      when the entries are pairwise distinct. */
  lemma FromEntriesValidIffDistinct(entries: seq<string>)
    ensures Valid(FromEntries(entries)) <==> Distinct(entries)
  {
    var d := FromEntries(entries);
    SumOnes(d.counts);
    assert d.counts.Keys == Elements(entries);
    ElementsCard(entries);
  }

  lemma {:induction false} DistinctMultiplicity(q: seq<string>, x: string)
    requires Distinct(q) && x in q
    ensures multiset(q)[x] == 1
    decreases |q|
  {
    assert q == [q[0]] + q[1..];
    if q[0] == x {
      forall j | 0 <= j < |q[1..]| ensures q[1..][j] != x {
        assert q[1..][j] == q[j + 1];
      }
      assert x !in q[1..];
      assert multiset(q[1..])[x] == 0;
    } else {
      assert Distinct(q[1..]) by {
        forall i, j | 0 <= i < j < |q[1..]| ensures q[1..][i] != q[1..][j] {
          assert q[1..][i] == q[i + 1] && q[1..][j] == q[j + 1];
        }
      }
      DistinctMultiplicity(q[1..], x);
    }
  }

  /** As written, the list and array constructors agree with their evident intent
      exactly when the entries are pairwise distinct. */
  lemma FromEntriesAgreesIffDistinct(entries: seq<string>)
    ensures FromEntries(entries) == FromEntriesIntended(entries) <==> Distinct(entries)
  {
    var d := FromEntries(entries);
    var e := FromEntriesIntended(entries);
    if Distinct(entries) {
      FromEntriesValidIffDistinct(entries);
      forall x ensures Count(d, x) == Count(e, x) {
        if x in entries {
          DistinctMultiplicity(entries, x);
        }
      }
      SameCounts(d, e);
    } else {
      var i, j :| 0 <= i < j < |entries| && entries[i] == entries[j];
      RepeatedEntryDiffers(entries, i, j);
    }
  }

  /** A repeated entry is counted twice by the intended constructor and once by
      the constructor as written. */
  lemma RepeatedEntryDiffers(entries: seq<string>, i: nat, j: nat)
    requires i < j < |entries| && entries[i] == entries[j]
    ensures Count(FromEntriesIntended(entries), entries[i]) >= 2
    ensures Count(FromEntries(entries), entries[i]) == 1
  {
    var x := entries[i];
    assert entries == entries[..j] + entries[j..];
    assert x in entries[..j];
    assert entries[j..][0] == x;
    assert multiset(entries)[x] == multiset(entries[..j])[x] + multiset(entries[j..])[x];
  }

  /** A repeated entry: the total says two observations, the map holds one, and a
      draw from the upper half of the range walks off the end of the outcomes. */
  lemma FromEntriesDuplicateCounterexample()
    ensures FromEntries(["a", "a"]).total == 2
    ensures Count(FromEntries(["a", "a"]), "a") == 1
    ensures !Valid(FromEntries(["a", "a"]))
    ensures RandomSelect(FromEntries(["a", "a"]), 0.75) == Sentinel
    ensures RandomSelect(FromEntriesIntended(["a", "a"]), 0.75) == "a"
  {
    var d := FromEntries(["a", "a"]);
    assert d.counts == map["a" := 1];
    assert IsLeast("a", d.counts.Keys);
    LeastUnique("a", d.counts.Keys);
    assert (d.counts - {"a"}).Keys == {};
    assert SumCounts(d.counts) == 1;
  }

  // ---------------------------------------------------------------------------
  // randomSelect
  // ---------------------------------------------------------------------------

  /** In a strictly sorted listing, the elements before position `k` are
      exactly the listed elements that sort before the `k`-th. */
  lemma SortedPrefixBelow(q: seq<string>, k: nat, y: string)
    requires StrictlySorted(q) && k < |q|
    ensures y in q[..k] <==> y in q && LexLt(y, q[k])
  {
    if y in q[..k] {
      var j :| 0 <= j < k && q[..k][j] == y;
      assert q[j] == y;
    }
    if y in q && LexLt(y, q[k]) {
      var j :| 0 <= j < |q| && q[j] == y;
      SortedIndexOrder(q, k, j);
      assert q[..k][j] == y;
    }
  }

  /** The outcomes before the `k`-th in sorted order carry the cumulative count of
      the first `k` sorted outcomes. */
  lemma BeforeIsCum(d: Dist, k: nat)
    requires k < |SortedSeq(d.counts.Keys)|
    ensures Before(d, SortedSeq(d.counts.Keys)[k]) == Cum(SortedSeq(d.counts.Keys), d.counts, k)
  {
    var q := SortedSeq(d.counts.Keys);
    var p := q[..k];
    var mb := map y | y in d.counts && LexLt(y, q[k]) :: d.counts[y];
    SortedDistinct(q);
    assert Distinct(p) by {
      assert forall i :: 0 <= i < |p| ==> p[i] == q[i];
    }
    forall y ensures y in p <==> y in mb {
      SortedPrefixBelow(q, k, y);
    }
    SumAnyOrder(p, mb);
    forall i | 0 <= i < |p| ensures Get(d.counts, p[i]) == Get(mb, p[i]) {
      SortedPrefixBelow(q, k, p[i]);
    }
    SeqSumAgree(p, d.counts, mb);
  }

  /** In a strictly sorted listing, an element that sorts before another also
      sits before it. */
  lemma SortedIndexOrder(q: seq<string>, i: nat, j: nat)
    requires StrictlySorted(q) && i < |q| && j < |q|
    requires LexLt(q[j], q[i])
    ensures j < i
  {
    if j == i {
      assert false;
    } else if j > i {
      LexLeAntisymmetric(q[i], q[j]);
      assert false;
    }
  }

  lemma CumOrder(q: seq<string>, m: map<string, nat>, i: nat, j: nat)
    requires i <= |q| && j <= |q|
    ensures i <= j ==> Cum(q, m, i) <= Cum(q, m, j)
  {
    if i <= j {
      CumMonotone(q, m, i, j);
    }
  }

  /** A positive mass needs at least one outcome. */
  lemma MassNeedsOutcome(m: map<string, nat>)
    ensures SumCounts(m) > 0 ==> m.Keys != {}
  {
  }

  /** `randomSelect` returns the first outcome in sorted order whose cumulative
      count reaches the draw: it is in the sample space, its cumulative count is
      at least `r`, and every outcome sorting before it falls short of `r`. */
  lemma SelectAtFirstCovering(d: Dist, r: real)
    requires SampleSpace(d) != {}
    requires 0.0 <= r <= SumCounts(d.counts) as real
    ensures SelectAt(d, r) in SampleSpace(d)
    ensures r <= (Before(d, SelectAt(d, r)) + Count(d, SelectAt(d, r))) as real
    ensures forall y :: y in SampleSpace(d) && LexLt(y, SelectAt(d, r)) ==>
              ((Before(d, y) + Count(d, y)) as real) < r
  {
    var q := SortedSeq(d.counts.Keys);
    var m := d.counts;
    SelectAtWalk(d, r);
    var i := WalkIndex(q, m, r);
    var x := q[i];
    BeforeIsCum(d, i);
    CumStep(q, m, i);
    forall y | y in SampleSpace(d) && LexLt(y, x)
      ensures ((Before(d, y) + Count(d, y)) as real) < r
    {
      ShortBeforeWalk(d, r, i, y);
    }
  }

  /** A draw within the mass stops the walk at an outcome, which is the one
      `randomSelect` returns. */
  lemma SelectAtWalk(d: Dist, r: real)
    requires SampleSpace(d) != {}
    requires 0.0 <= r <= SumCounts(d.counts) as real
    ensures WalkIndex(SortedSeq(d.counts.Keys), d.counts, r) < |SortedSeq(d.counts.Keys)|
    ensures SelectAt(d, r) == SortedSeq(d.counts.Keys)[WalkIndex(SortedSeq(d.counts.Keys), d.counts, r)]
  {
    SortedMass(d.counts);
    WalkLands(SortedSeq(d.counts.Keys), d.counts, r);
  }

  /** An outcome sorting before the walk's stopping point falls short of the
      draw. */
  lemma ShortBeforeWalk(d: Dist, r: real, i: nat, y: string)
    requires i < |SortedSeq(d.counts.Keys)|
    requires forall j :: 1 <= j <= i ==> (Cum(SortedSeq(d.counts.Keys), d.counts, j) as real) < r
    requires y in d.counts && LexLt(y, SortedSeq(d.counts.Keys)[i])
    ensures ((Before(d, y) + Count(d, y)) as real) < r
  {
    var q := SortedSeq(d.counts.Keys);
    var m := d.counts;
    var j :| 0 <= j < |q| && q[j] == y;
    SortedIndexOrder(q, i, j);
    BeforeIsCum(d, j);
    CumStep(q, m, j);
    assert Cum(q, m, j + 1) as real < r;
  }

  /** Where the walk stops within the listing, the draw lies strictly above the
      cumulative count before that position and at most the one through it. */
  lemma WalkInterval(q: seq<string>, m: map<string, nat>, r: real)
    requires 0.0 < r && WalkIndex(q, m, r) < |q|
    ensures (Cum(q, m, WalkIndex(q, m, r)) as real) < r
    ensures r <= Cum(q, m, WalkIndex(q, m, r) + 1) as real
  {
    var i := WalkIndex(q, m, r);
    if i == 0 {
      assert q[..0] == [];
    }
  }

  /** The outcome a positive draw selects occupies an interval holding the draw. */
  lemma SelectAtInInterval(d: Dist, r: real)
    requires 0.0 < r <= SumCounts(d.counts) as real
    ensures SelectAt(d, r) in SampleSpace(d)
    ensures (Before(d, SelectAt(d, r)) as real) < r
    ensures r <= (Before(d, SelectAt(d, r)) + Count(d, SelectAt(d, r))) as real
  {
    var q := SortedSeq(d.counts.Keys);
    var m := d.counts;
    MassNeedsOutcome(m);
    SortedMass(m);
    WalkLands(q, m, r);
    var i := WalkIndex(q, m, r);
    assert SelectAt(d, r) == q[i];
    WalkInterval(q, m, r);
    BeforeIsCum(d, i);
    CumStep(q, m, i);
  }

  /** Only one position's interval holds the draw: the one the walk stops at. */
  lemma WalkUnique(q: seq<string>, m: map<string, nat>, r: real, k: nat)
    requires k < |q|
    requires (Cum(q, m, k) as real) < r <= Cum(q, m, k + 1) as real
    ensures WalkIndex(q, m, r) == k
  {
    var i := WalkIndex(q, m, r);
    if i < |q| {
      CumOrder(q, m, i + 1, k);
    }
  }

  /** An outcome whose interval holds a positive draw is the one selected. */
  lemma SelectAtFromInterval(d: Dist, r: real, x: string)
    requires 0.0 < r <= SumCounts(d.counts) as real
    requires x in SampleSpace(d)
    requires (Before(d, x) as real) < r <= (Before(d, x) + Count(d, x)) as real
    ensures SelectAt(d, r) == x
  {
    var q := SortedSeq(d.counts.Keys);
    var m := d.counts;
    var k :| 0 <= k < |q| && q[k] == x;
    BeforeIsCum(d, k);
    CumStep(q, m, k);
    WalkUnique(q, m, r, k);
    SortedMass(m);
    WalkLands(q, m, r);
  }

  /** The weighted law: for a positive draw `r` not above the total, the draw
      selects `x` exactly when `r` lies in the interval that `x` occupies after
      the outcomes sorting before it, an interval of length `Count(d, x)`. */
  lemma SelectAtWeighted(d: Dist, r: real, x: string)
    requires 0.0 < r <= SumCounts(d.counts) as real
    ensures SelectAt(d, r) == x <==>
              x in SampleSpace(d) &&
              (Before(d, x) as real) < r <= (Before(d, x) + Count(d, x)) as real
  {
    SelectAtInInterval(d, r);
    if x in SampleSpace(d) && (Before(d, x) as real) < r <= (Before(d, x) + Count(d, x)) as real {
      SelectAtFromInterval(d, r, x);
    }
  }
}

=== FILE: driver.dfy ===
/**
  The decision `Main` makes for one line typed at the prompt: stop, generate a
  given number of words from the unchanged model, or fold the line's words into
  the model and generate as many words as the line had pieces.
 */
module Driver {
  import opened Results
  import opened StringDistribution
  import opened RandomFile

  /** `EXIT_MESSAGE`. */
  const ExitMessage: string := "see ya"

  /** Membership in `DIGITS`. */
  predicate IsDigit(c: char) {
    '0' <= c <= '9'
  }

  /** `allDigits`: scans left to right and answers false at the first character
      outside `DIGITS`. */
  function AllDigits(s: string): (b: bool)
    ensures b <==> forall i :: 0 <= i < |s| ==> IsDigit(s[i])
    decreases |s|
  {
    if |s| == 0 then true
    else if !IsDigit(s[0]) then false
    else
      var b := AllDigits(s[1..]);
      assert b <==> forall i :: 1 <= i < |s| ==> IsDigit(s[i]) by {
        assert forall i :: 1 <= i < |s| ==> s[i] == s[1..][i - 1];
      }
      b
  }

  /** The number a string of decimal digits denotes. */
  function DecimalValue(s: string): (n: nat)
    requires AllDigits(s)
    ensures n < Pow10(|s|)
    decreases |s|
  {
    if |s| == 0 then 0
    else
      var p := s[..|s| - 1];
      assert AllDigits(p) by {
        assert forall i :: 0 <= i < |p| ==> p[i] == s[i];
      }
      10 * DecimalValue(p) + (s[|s| - 1] as int - '0' as int)
  }

  function Pow10(k: nat): (p: nat)
    ensures p > 0
  {
    if k == 0 then 1 else 10 * Pow10(k - 1)
  }

  /** The canonical decimal spelling of `n`, no leading zeros. */
  function DecimalDigits(n: nat): (s: string)
    ensures |s| > 0 && AllDigits(s)
    ensures |s| > 1 ==> s[0] != '0'
    decreases n
  {
    var last := [('0' as int + n % 10) as char];
    if n < 10 then last
    else
      var front := DecimalDigits(n / 10);
      assert (front + last)[0] == front[0];
      front + last
  }

  /** Reading back the spelling of a number gives the number. */
  lemma {:induction false} DecimalRoundTrip(n: nat)
    ensures DecimalValue(DecimalDigits(n)) == n
    decreases n
  {
    if n >= 10 {
      DecimalRoundTrip(n / 10);
      var s := DecimalDigits(n);
      assert s[..|s| - 1] == DecimalDigits(n / 10);
    }
  }

  /** A leading zero does not change the number, so with `DecimalRoundTrip`
      every digit string reads as the number its digits spell, as
      `Double.parseDouble` does. */
  lemma {:induction false} LeadingZero(s: string)
    requires AllDigits(s)
    ensures AllDigits("0" + s) && DecimalValue("0" + s) == DecimalValue(s)
    decreases |s|
  {
    var z := "0" + s;
    assert AllDigits(z) by {
      assert forall i :: 1 <= i < |z| ==> z[i] == s[i - 1];
    }
    if |s| > 0 {
      var p := s[..|s| - 1];
      assert AllDigits(p) by {
        assert forall i :: 0 <= i < |p| ==> p[i] == s[i];
      }
      LeadingZero(p);
      assert z[..|z| - 1] == "0" + p;
      assert z[|z| - 1] == s[|s| - 1];
    }
  }

  /** What a line asks for. */
  datatype Command = Exit | WordCount(n: nat) | Ingest(text: string)

  /** The branch of `main` on one input line: the exit check comes first, then
      the digit check, and anything else is new text. */
  function Classify(line: string): (c: Command)
    ensures c.Exit? <==> line == "" || line == ExitMessage
    ensures c.WordCount? <==> line != "" && forall i :: 0 <= i < |line| ==> IsDigit(line[i])
    ensures c.WordCount? ==> c.n == DecimalValue(line)
    ensures c.Ingest? ==> c.text == line
  {
    if line == "" || line == ExitMessage then
      assert line == ExitMessage ==> !IsDigit(line[0]);
      Exit
    else if AllDigits(line) then WordCount(DecimalValue(line))
    else Ingest(line)
  }

  /** The outcome of one pass of the read loop. */
  datatype StepResult =
    | Quit
    | Emit(generator: Generator, numWords: nat)
    | Crash(error: Exception)

  /** One pass of the read loop: stop, or the model to keep and the number of
      words to ask it for; building the model from the line can throw. */
  function Step(g: Generator, line: string): (r: StepResult)
    ensures r.Quit? <==> line == "" || line == ExitMessage
    ensures Classify(line).WordCount? ==> r == Emit(g, DecimalValue(line))
    ensures Classify(line).Ingest? ==>
              (r.Crash? <==> !AllWordLike(Split(line)))
    ensures r.Crash? ==> r.error == StringIndexOutOfBounds
    ensures Classify(line).Ingest? && r.Emit? ==>
              && r.numWords == |Split(line)|
              && (forall x :: Count(r.generator.words, x) == Count(g.words, x) + Occurrences(Split(line), x))
              && (Valid(g.words) ==>
                    Valid(r.generator.words) && Total(r.generator.words) == Total(g.words) + |Split(line)|)
  {
    match Classify(line)
    case Exit => Quit
    case WordCount(n) => Emit(g, n)
    case Ingest(text) =>
      match FromText(text)
      case Fail(e) => Crash(e)
      case Ok(h) => Emit(Generator(Combine(g.words, h.words)), |Split(text)|)
  }

  /** The read loop as the code is written: the same branches as `Step`, but a
      line of text is folded in with `combine` as written. */
  function StepAsWritten(g: Generator, line: string): (r: StepResult)
    ensures r.Quit? <==> line == "" || line == ExitMessage
    ensures Classify(line).WordCount? ==> r == Emit(g, DecimalValue(line))
    ensures Classify(line).Ingest? && !AllWordLike(Split(line)) ==> r == Crash(StringIndexOutOfBounds)
    ensures Classify(line).Ingest? && Split(line) == [] ==>
              && r.Emit? && r.numWords == 0
              && r.generator.words.counts == g.words.counts
              && SampleSpace(r.generator.words) == SampleSpace(g.words)
              && Valid(r.generator.words)
  {
    match Classify(line)
    case Exit => Quit
    case WordCount(n) => Emit(g, n)
    case Ingest(text) =>
      match FromText(text)
      case Fail(e) => Crash(e)
      case Ok(h) =>
        match CombineAsWritten(g.words, h.words)
        case Fail(e) => Crash(e)
        case Ok(d) => Emit(Generator(d), |Split(text)|)
  }

  /** With `combine` as written, every line that yields at least one word makes
      `main` throw where the intended loop would extend the model. */
  lemma IngestWithCombineAsWrittenThrows(g: Generator, line: string)
    requires Classify(line).Ingest? && AllWordLike(Split(line)) && Split(line) != []
    ensures StepAsWritten(g, line) == Crash(UnsupportedOperation)
  {
    var h := FromText(line).value;
    var w := Normalize(Split(line)[0]).value;
    assert Occurrences(Split(line), w) >= 1;
    assert w in SampleSpace(h.words);
  }

  /** The loop keeps every stored word clean, lower-case and free of
      whitespace. */
  lemma StepKeepsNormalKeys(g: Generator, line: string)
    requires NormalKeys(g.words) && Step(g, line).Emit?
    ensures NormalKeys(Step(g, line).generator.words)
  {
    if Classify(line).Ingest? {
      var h := FromText(line).value;
      assert SampleSpace(Combine(g.words, h.words)) == SampleSpace(g.words) + SampleSpace(h.words);
    }
  }

  /** Two spaces in a row make an empty piece, and stripping the empty piece
      throws. */
  lemma DoubleSpaceCrashes(g: Generator)
    ensures Step(g, "a  b") == Crash(StringIndexOutOfBounds)
  {
    var line := "a  b";
    assert !AllDigits(line) by {
      assert !IsDigit(line[0]);
    }
    assert line[1] == ' ' && line[2] == ' ';
    var ps := Pieces(line);
    assert Pieces(line[3..]) == ["b"] by {
      PiecesOfWord(line[3..]);
    }
    assert line[1..][1..] == line[2..] && line[2..][1..] == line[3..];
    assert Pieces(line[2..]) == ["", "b"];
    assert Pieces(line[1..]) == ["", "", "b"];
    assert [line[0]] + "" == "a";
    assert ps == ["a", "", "b"];
    assert !NoWhitespace(line) by {
      assert IsWhitespace(line[1]);
    }
    assert Split(line) == ["a", "", "b"];
    assert !HasWordChar(Split(line)[1]);
  }
}

=== FILE: lex.dfy ===
/**
  The lexicographic order on strings that `String.compareTo` implements (char by
  char, a proper prefix before its extensions), and the ascending enumeration of a
  finite set of strings that `Collections.sort` produces from a sample space.
 */
module Lex {

  /** `a` sorts before or equal to `b` under `String.compareTo`. */
  predicate LexLe(a: string, b: string)
    decreases |a|
  {
    |a| == 0 || (|b| > 0 && (a[0] < b[0] || (a[0] == b[0] && LexLe(a[1..], b[1..]))))
  }

  predicate LexLt(a: string, b: string) {
    LexLe(a, b) && a != b
  }

  lemma LexLeAntisymmetric(a: string, b: string)
    requires LexLe(a, b) && LexLe(b, a)
    ensures a == b
    decreases |a|
  {
    if |a| > 0 {
      LexLeAntisymmetric(a[1..], b[1..]);
      assert a == [a[0]] + a[1..] && b == [b[0]] + b[1..];
    }
  }

  lemma LexLeTransitive(a: string, b: string, c: string)
    requires LexLe(a, b) && LexLe(b, c)
    ensures LexLe(a, c)
    decreases |a|
  {
    if |a| > 0 && a[0] == b[0] && b[0] == c[0] {
      LexLeTransitive(a[1..], b[1..], c[1..]);
    }
  }

  lemma LexLeTotal(a: string, b: string)
    ensures LexLe(a, b) || LexLe(b, a)
    decreases |a|
  {
    if |a| > 0 && |b| > 0 && a[0] == b[0] {
      LexLeTotal(a[1..], b[1..]);
    }
  }

  lemma LexLeAntisymmetricAll()
    ensures forall a, b :: LexLe(a, b) && LexLe(b, a) ==> a == b
  {
    forall a, b | LexLe(a, b) && LexLe(b, a) ensures a == b {
      LexLeAntisymmetric(a, b);
    }
  }

  /** `m` is the first element of `s` in sorted order. */
  predicate IsLeast(m: string, s: set<string>) {
    m in s && forall y :: y in s ==> LexLe(m, y)
  }

  lemma {:induction false} LeastExists(s: set<string>)
    requires s != {}
    ensures exists m :: IsLeast(m, s)
    decreases |s|
  {
    var x :| x in s;
    if s - {x} == {} {
      assert s == {x};
      LexLeTotal(x, x);
      assert IsLeast(x, s);
    } else {
      LeastExists(s - {x});
      var m :| IsLeast(m, s - {x});
      LexLeTotal(x, m);
      if LexLe(x, m) {
        forall y | y in s ensures LexLe(x, y) {
          if y != x {
            LexLeTransitive(x, m, y);
          } else {
            LexLeTotal(x, x);
          }
        }
        assert IsLeast(x, s);
      } else {
        assert IsLeast(m, s);
      }
    }
  }

  /** The first element of a non-empty set in sorted order. */
  function Least(s: set<string>): (m: string)
    requires s != {}
    ensures IsLeast(m, s)
  {
    LeastExists(s);
    LexLeAntisymmetricAll();
    var m :| IsLeast(m, s);
    m
  }

  /** The least element is unique: any element below all others is `Least`. */
  lemma LeastUnique(m: string, s: set<string>)
    requires IsLeast(m, s)
    ensures Least(s) == m
  {
    LexLeAntisymmetric(m, Least(s));
  }

  /** The elements of `q` are pairwise distinct and in strictly ascending order. */
  predicate StrictlySorted(q: seq<string>) {
    forall i, j :: 0 <= i < j < |q| ==> LexLt(q[i], q[j])
  }

  /** The elements of `s` in ascending order, as `Collections.sort` leaves them. */
  function SortedSeq(s: set<string>): (q: seq<string>)
    ensures |q| == |s|
    ensures forall x :: x in q <==> x in s
    ensures StrictlySorted(q)
    decreases |s|
  {
    if s == {} then []
    else
      var m := Least(s);
      [m] + SortedSeq(s - {m})
  }
}

=== FILE: random_file.dfy ===
/**
  `RandomFile`: turns raw text into a word distribution. Text is split on single
  whitespace characters, each piece is lower-cased and stripped of leading and
  trailing punctuation, and the resulting word is counted once.
 */
module RandomFile {
  import opened Results
  import opened StringDistribution

  /** The eight characters of `PUNCTUATION`. */
  predicate IsPunctuation(c: char) {
    c == '\'' || c == '"' || c == '.' || c == ',' || c == ';' || c == '!' || c == '?' || c == ':'
  }

  /** The characters the regular expression `\s` matches: space, tab, line feed,
      vertical tab, form feed and carriage return. */
  predicate IsWhitespace(c: char) {
    c == ' ' || c == '\t' || c == '\n' || c == '\U{000B}' || c == '\U{000C}' || c == '\r'
  }

  predicate NoWhitespace(s: string) {
    forall k :: 0 <= k < |s| ==> !IsWhitespace(s[k])
  }

  /** `s` holds a character that is not punctuation: the condition under which
      stripping stops before running off the string. */
  predicate HasWordChar(s: string) {
    exists k :: 0 <= k < |s| && !IsPunctuation(s[k])
  }

  /** `t` is non-empty and neither starts nor ends with punctuation. */
  predicate Clean(t: string) {
    |t| > 0 && !IsPunctuation(t[0]) && !IsPunctuation(t[|t| - 1])
  }

  /** `s[i..j]` is what is left after removing all leading and all trailing
      punctuation of `s`. */
  predicate StrippedAt(s: string, i: int, j: int) {
    && 0 <= i < j <= |s|
    && (forall k :: 0 <= k < i ==> IsPunctuation(s[k]))
    && (forall k :: j <= k < |s| ==> IsPunctuation(s[k]))
    && !IsPunctuation(s[i]) && !IsPunctuation(s[j - 1])
  }

  // ---------------------------------------------------------------------------
  // Lower-casing
  // ---------------------------------------------------------------------------

  function LowerChar(c: char): char {
    if 'A' <= c <= 'Z' then (c as int + 32) as char else c
  }

  /** `toLowerCase`, on the ASCII letters. */
  function ToLower(s: string): (r: string)
    ensures |r| == |s|
    ensures NoUpper(r)
    ensures forall i :: 0 <= i < |r| ==> (IsPunctuation(r[i]) <==> IsPunctuation(s[i]))
    ensures NoWhitespace(r) <==> NoWhitespace(s)
    ensures forall i :: 0 <= i < |r| ==> ('a' <= r[i] <= 'z' <==> 'a' <= s[i] <= 'z' || 'A' <= s[i] <= 'Z')
  {
    seq(|s|, i requires 0 <= i < |s| => LowerChar(s[i]))
  }

  predicate NoUpper(s: string) {
    forall k :: 0 <= k < |s| ==> !('A' <= s[k] <= 'Z')
  }

  /** The value of `toLowerCase`: each letter `A`-`Z` becomes the matching
      lower-case letter and every other character is kept. */
  lemma ToLowerValue(s: string)
    ensures forall i :: 0 <= i < |s| && 'A' <= s[i] <= 'Z' ==>
              ToLower(s)[i] as int == s[i] as int + ('a' as int - 'A' as int)
    ensures forall i :: 0 <= i < |s| && !('A' <= s[i] <= 'Z') ==> ToLower(s)[i] == s[i]
  {
  }

  lemma ToLowerIdempotent(s: string)
    ensures ToLower(ToLower(s)) == ToLower(s)
  {
  }

  /** Text without upper-case letters is its own lower case. */
  lemma ToLowerFixesNoUpper(s: string)
    requires NoUpper(s)
    ensures ToLower(s) == s
  {
  }

  // ---------------------------------------------------------------------------
  // removePunc
  // ---------------------------------------------------------------------------

  /** The first loop of `removePunc`, tracking how many characters it has cut
      from the front: it stops at the first non-punctuation character at or after
      `i`, or at the end of the string, where the next `charAt(0)` throws. */
  function LeadEnd(s: string, i: nat): (e: nat)
    requires i <= |s|
    ensures i <= e <= |s|
    ensures forall k :: i <= k < e ==> IsPunctuation(s[k])
    ensures e < |s| ==> !IsPunctuation(s[e])
    decreases |s| - i
  {
    if i == |s| then i
    else if IsPunctuation(s[i]) then LeadEnd(s, i + 1)
    else i
  }

  /** The second loop of `removePunc`, tracking the remaining length: it stops
      at the last non-punctuation character before position `j`. */
  function TrailEnd(s: string, j: nat): (e: nat)
    requires j <= |s|
    ensures e <= j
    ensures forall k :: e <= k < j ==> IsPunctuation(s[k])
    ensures e > 0 ==> !IsPunctuation(s[e - 1])
  {
    if j == 0 then 0
    else if IsPunctuation(s[j - 1]) then TrailEnd(s, j - 1)
    else j
  }

  /** `removePunc`: strip leading, then trailing, punctuation. Throws exactly when
      the input is empty or all punctuation; otherwise the result is the
      contiguous middle of the input between its first and its last
      non-punctuation character, so punctuation inside a word is kept. */
  function RemovePunc(input: string): (r: Result<string>)
    ensures r.Fail? <==> !HasWordChar(input)
    ensures r.Fail? ==> r.error == StringIndexOutOfBounds
    ensures r.Ok? ==> exists i, j :: StrippedAt(input, i, j) && r.value == input[i..j]
    ensures r.Ok? ==> Clean(r.value)
  {
    var i := LeadEnd(input, 0);
    if i == |input| then
      Fail(StringIndexOutOfBounds)
    else
      var j := TrailEnd(input, |input|);
      assert i < j;
      assert StrippedAt(input, i, j);
      Ok(input[i..j])
  }

  /** A clean word comes back unchanged. */
  lemma RemovePuncClean(t: string)
    requires Clean(t)
    ensures RemovePunc(t) == Ok(t)
  {
    assert t[0..] == t;
    assert t[..|t|] == t;
  }

  /** Stripping twice is the same as stripping once. */
  lemma RemovePuncIdempotent(s: string)
    requires RemovePunc(s).Ok?
    ensures RemovePunc(RemovePunc(s).value) == RemovePunc(s)
  {
    RemovePuncClean(RemovePunc(s).value);
  }

  /** Any property every character of the input has, the stripped word has too. */
  lemma RemovePuncKeeps(s: string, P: char -> bool)
    requires RemovePunc(s).Ok?
    requires forall k :: 0 <= k < |s| ==> P(s[k])
    ensures forall k :: 0 <= k < |RemovePunc(s).value| ==> P(RemovePunc(s).value[k])
  {
    var i, j :| StrippedAt(s, i, j) && RemovePunc(s).value == s[i..j];
    forall k | 0 <= k < j - i ensures P(s[i..j][k]) {
      assert s[i..j][k] == s[i + k];
    }
  }

  /** The sample token in `RandomFile.main`: a leading quote and a trailing
      exclamation mark both go. */
  lemma RemovePuncHello()
    ensures RemovePunc("\"hello!") == Ok("hello")
  {
    var s := "\"hello!";
    assert LeadEnd(s, 1) == 1;
    assert LeadEnd(s, 0) == 1;
    assert TrailEnd(s, 6) == 6;
    assert TrailEnd(s, 7) == 6;
    assert s[1..6] == "hello";
  }

  /** An apostrophe inside a word is kept. */
  lemma RemovePuncInnerApostrophe()
    ensures RemovePunc("don't") == Ok("don't")
  {
    RemovePuncClean("don't");
  }

  /** An empty or all-punctuation token throws. */
  lemma RemovePuncThrows()
    ensures RemovePunc("") == Fail(StringIndexOutOfBounds)
    ensures RemovePunc("\"\"") == Fail(StringIndexOutOfBounds)
  {
    assert !HasWordChar("\"\"");
  }

  // ---------------------------------------------------------------------------
  // split("\\s")
  // ---------------------------------------------------------------------------

  function CountWhitespace(s: string): nat {
    if s == [] then 0 else (if IsWhitespace(s[0]) then 1 else 0) + CountWhitespace(s[1..])
  }

  /** The pieces between single whitespace characters, empty pieces included. */
  function Pieces(s: string): (ps: seq<string>)
    ensures |ps| == CountWhitespace(s) + 1
    ensures forall p :: p in ps ==> NoWhitespace(p)
    decreases |s|
  {
    if s == [] then [""]
    else
      var rest := Pieces(s[1..]);
      if IsWhitespace(s[0]) then [""] + rest
      else
        var first := [s[0]] + rest[0];
        assert rest[0] in rest;
        assert NoWhitespace(first) by {
          forall k | 0 <= k < |first| ensures !IsWhitespace(first[k]) {
            if k > 0 {
              assert first[k] == rest[0][k - 1];
            }
          }
        }
        assert forall p :: p in rest[1..] ==> p in rest;
        [first] + rest[1..]
  }

  /** The pieces joined back together with one space between neighbours. */
  function JoinSpaces(ps: seq<string>): string
    requires ps != []
  {
    if |ps| == 1 then ps[0] else ps[0] + " " + JoinSpaces(ps[1..])
  }

  /** Splitting and re-joining with spaces is the identity on text whose only
      whitespace is the plain space. */
  lemma {:induction false} JoinPieces(s: string)
    requires forall k :: 0 <= k < |s| && IsWhitespace(s[k]) ==> s[k] == ' '
    ensures JoinSpaces(Pieces(s)) == s
    decreases |s|
  {
    if s != [] {
      JoinPieces(s[1..]);
      var rest := Pieces(s[1..]);
      if IsWhitespace(s[0]) {
        assert Pieces(s) == [""] + rest;
        assert ([""] + rest)[1..] == rest;
      } else if |rest| == 1 {
        assert JoinSpaces(Pieces(s)) == [s[0]] + rest[0];
      } else {
        assert JoinSpaces(rest) == rest[0] + " " + JoinSpaces(rest[1..]);
        assert Pieces(s)[1..] == rest[1..];
      }
    }
  }

  /** The whitespace characters of `s`, in order: the separators `split` cuts at. */
  function Separators(s: string): (seps: string)
    ensures |seps| == CountWhitespace(s)
    ensures forall k :: 0 <= k < |seps| ==> IsWhitespace(seps[k])
    decreases |s|
  {
    if s == [] then []
    else if IsWhitespace(s[0]) then [s[0]] + Separators(s[1..])
    else Separators(s[1..])
  }

  /** The pieces joined back together, with `seps[k]` between piece `k` and
      piece `k + 1`. */
  function JoinWith(ps: seq<string>, seps: string): string
    requires |ps| == |seps| + 1
    decreases |seps|
  {
    if seps == [] then ps[0] else ps[0] + [seps[0]] + JoinWith(ps[1..], seps[1..])
  }

  /** The pieces, put back together with the very separators they were cut at,
      give the text back: together with the contract of `Pieces` this fixes
      every piece and their order, whatever whitespace the text holds. */
  lemma {:induction false} PiecesJoinWith(s: string)
    ensures JoinWith(Pieces(s), Separators(s)) == s
    decreases |s|
  {
    if s != [] {
      PiecesJoinWith(s[1..]);
      var rest := Pieces(s[1..]);
      var seps := Separators(s[1..]);
      if IsWhitespace(s[0]) {
        assert Pieces(s) == [""] + rest;
        assert ([""] + rest)[1..] == rest;
        assert Separators(s) == [s[0]] + seps;
        assert ([s[0]] + seps)[1..] == seps;
      } else if seps == [] {
        assert JoinWith(Pieces(s), Separators(s)) == [s[0]] + rest[0];
      } else {
        assert JoinWith(rest, seps) == rest[0] + [seps[0]] + JoinWith(rest[1..], seps[1..]);
        assert Pieces(s)[1..] == rest[1..];
      }
    }
  }

  /** Re-splitting joined pieces gives back the pieces, when no piece holds
      whitespace. */
  lemma {:induction false} PiecesOfJoin(ps: seq<string>)
    requires ps != []
    requires forall p :: p in ps ==> NoWhitespace(p)
    ensures Pieces(JoinSpaces(ps)) == ps
    decreases |ps|, |ps[0]|
  {
    if |ps| == 1 {
      PiecesOfWord(ps[0]);
    } else {
      var tail := JoinSpaces(ps[1..]);
      PiecesOfJoin(ps[1..]);
      PiecesPrefix(ps[0], tail);
      assert ps == [ps[0]] + ps[1..];
    }
  }

  /** A word without whitespace is a single piece. */
  lemma {:induction false} PiecesOfWord(w: string)
    requires NoWhitespace(w)
    ensures Pieces(w) == [w]
    decreases |w|
  {
    if w != [] {
      PiecesOfWord(w[1..]);
      assert [w[0]] + w[1..] == w;
    }
  }

  /** Prefixing a whitespace-free word and a space adds that word as a piece. */
  lemma {:induction false} PiecesPrefix(w: string, tail: string)
    requires NoWhitespace(w)
    ensures Pieces(w + " " + tail) == [w] + Pieces(tail)
    decreases |w|
  {
    if w == [] {
      assert w + " " + tail == [' '] + tail;
      assert (w + " " + tail)[1..] == tail;
    } else {
      assert (w + " " + tail)[1..] == w[1..] + " " + tail;
      PiecesPrefix(w[1..], tail);
      assert [w[0]] + w[1..] == w;
    }
  }

  /** Drops empty pieces from the end, as `split` does with a limit of zero. */
  function DropTrailingEmpty(ps: seq<string>): (r: seq<string>)
    ensures |r| <= |ps| && r == ps[..|r|]
    ensures forall k :: |r| <= k < |ps| ==> ps[k] == ""
    ensures r == [] || r[|r| - 1] != ""
    decreases |ps|
  {
    if ps == [] then []
    else if ps[|ps| - 1] == "" then DropTrailingEmpty(ps[..|ps| - 1])
    else ps
  }

  /** `split("\\s")`: the pieces between single whitespace characters, trailing
      empty pieces removed; a string with no whitespace at all is one piece, even
      when it is empty. */
  function Split(s: string): (r: seq<string>)
    ensures forall p :: p in r ==> NoWhitespace(p)
    ensures s == "" ==> r == [""]
    ensures s != "" ==> |r| <= |Pieces(s)| && r == Pieces(s)[..|r|] && forall k :: |r| <= k < |Pieces(s)| ==> Pieces(s)[k] == ""
    ensures s != "" ==> r == [] || r[|r| - 1] != ""
  {
    if NoWhitespace(s) then
      PiecesOfWord(s);
      [s]
    else
      DropTrailingEmpty(Pieces(s))
  }

  /** Splitting words joined by single spaces gives the words back, provided
      none holds whitespace and the last is not empty (`split` would drop it). */
  lemma SplitOfJoin(ps: seq<string>)
    requires ps != [] && forall p :: p in ps ==> NoWhitespace(p)
    requires ps[|ps| - 1] != ""
    ensures Split(JoinSpaces(ps)) == ps
  {
    var s := JoinSpaces(ps);
    PiecesOfJoin(ps);
    if |ps| > 1 {
      assert s == ps[0] + " " + JoinSpaces(ps[1..]);
      assert s[|ps[0]|] == ' ';
      assert !NoWhitespace(s);
    }
  }

  // ---------------------------------------------------------------------------
  // The whitespace clause of the rep invariant
  // ---------------------------------------------------------------------------

  /** The first clause of `StringDistribution`'s rep invariant: no key holds
      whitespace. */
  predicate WhitespaceFreeKeys(d: Dist) {
    forall x :: x in d.counts ==> NoWhitespace(x)
  }

  /** `addSingle` does not check the clause: it holds afterwards exactly when it
      held before and the added outcome is free of whitespace. */
  lemma AddSingleWhitespace(d: Dist, x: string)
    ensures WhitespaceFreeKeys(AddSingle(d, x)) <==> WhitespaceFreeKeys(d) && NoWhitespace(x)
  {
    assert x in AddSingle(d, x).counts;
  }

  /** `remove` keeps the clause. */
  lemma RemoveWhitespace(d: Dist, x: string)
    requires WhitespaceFreeKeys(d)
    ensures WhitespaceFreeKeys(Remove(d, x))
  {
  }

  /** Intended `combine` keeps the clause, and produces it only from arguments
      that both have it. */
  lemma CombineWhitespace(a: Dist, b: Dist)
    ensures WhitespaceFreeKeys(Combine(a, b)) <==> WhitespaceFreeKeys(a) && WhitespaceFreeKeys(b)
  {
    assert SampleSpace(Combine(a, b)) == SampleSpace(a) + SampleSpace(b);
  }

  /** The map, list and array constructors do not check the clause: they keep it
      exactly when no given key holds whitespace. */
  lemma ConstructorsWhitespace(m: map<string, nat>, entries: seq<string>)
    ensures WhitespaceFreeKeys(FromCounts(m)) <==> forall x :: x in m ==> NoWhitespace(x)
    ensures WhitespaceFreeKeys(FromEntries(entries)) <==> forall x :: x in entries ==> NoWhitespace(x)
  {
    assert forall x :: x in FromEntries(entries).counts <==> x in entries;
  }

  /** A key with a space in it enters through `addSingle` unchallenged. */
  lemma AddSingleAdmitsSpace()
    ensures !WhitespaceFreeKeys(AddSingle(Empty(), "a b"))
  {
    AddSingleWhitespace(Empty(), "a b");
    assert IsWhitespace("a b"[1]);
  }

  // ---------------------------------------------------------------------------
  // The word model
  // ---------------------------------------------------------------------------

  /** A `RandomFile`: the distribution of the words it has read. */
  datatype Generator = Generator(words: Dist)

  /** `w` is the lower-cased middle of `word` between its first and its last
      non-punctuation character. */
  ghost predicate LowerMiddle(word: string, w: string) {
    exists i, j :: StrippedAt(word, i, j) && w == ToLower(word[i..j])
  }

  /** What `addWord` stores for a raw token: lower-cased, then stripped. */
  function Normalize(word: string): (r: Result<string>)
    ensures r.Fail? <==> !HasWordChar(word)
    ensures r.Ok? ==> Clean(r.value) && NoUpper(r.value)
    ensures r.Ok? && NoWhitespace(word) ==> NoWhitespace(r.value)
  {
    LowerKeepsWordChars(word);
    LowerThenStripKeeps(word);
    RemovePunc(ToLower(word))
  }

  /** Stripping a lower-cased token leaves no upper-case letter, and brings in
      no whitespace. */
  lemma LowerThenStripKeeps(word: string)
    ensures RemovePunc(ToLower(word)).Ok? ==> NoUpper(RemovePunc(ToLower(word)).value)
    ensures RemovePunc(ToLower(word)).Ok? && NoWhitespace(word) ==>
              NoWhitespace(RemovePunc(ToLower(word)).value)
  {
    var lower := ToLower(word);
    if RemovePunc(lower).Ok? {
      RemovePuncKeeps(lower, c => !('A' <= c <= 'Z'));
      if NoWhitespace(word) {
        RemovePuncKeeps(lower, c => !IsWhitespace(c));
      }
    }
  }

  /** What is stored for a token is the lower-cased middle of the token between
      its first and its last non-punctuation character. */
  lemma NormalizeMiddle(word: string)
    ensures Normalize(word).Ok? ==> LowerMiddle(word, Normalize(word).value)
  {
    var lower := ToLower(word);
    if Normalize(word).Ok? {
      var i, j :| StrippedAt(lower, i, j) && RemovePunc(lower).value == lower[i..j];
      LowerStrippedAt(word, i, j);
    }
  }

  /** A quoted, capitalised word: the case of its first letter folds, the
      quotes go and punctuation inside the word stays. */
  lemma NormalizeQuotedApostrophe(c: char, rest: string)
    requires 'A' <= c <= 'Z' && NoUpper(rest)
    requires rest != [] && !IsPunctuation(rest[|rest| - 1])
    ensures Normalize(['\''] + [c] + rest + ['\'']) == Ok([LowerChar(c)] + rest)
  {
    var w := ['\''] + [c] + rest + ['\''];
    NormalizeCommutes(w);
    assert w == ['\''] + ([c] + rest) + ['\''];
    StripQuotes([c] + rest);
    LowerCapitalised(c, rest);
  }

  /** Stripping a quoted clean word leaves the word. */
  lemma StripQuotes(t: string)
    requires Clean(t)
    ensures RemovePunc(['\''] + t + ['\'']) == Ok(t)
  {
    var w := ['\''] + t + ['\''];
    assert w[1..|w| - 1] == t;
    assert StrippedAt(w, 1, |w| - 1);
    var i, j :| StrippedAt(w, i, j) && RemovePunc(w).value == w[i..j];
    StrippedAtUnique(w, i, j, 1, |w| - 1);
  }

  /** Lower-casing a capitalised word changes its first letter only. */
  lemma LowerCapitalised(c: char, rest: string)
    requires 'A' <= c <= 'Z' && NoUpper(rest)
    ensures ToLower([c] + rest) == [LowerChar(c)] + rest
  {
    var r := ToLower([c] + rest);
    assert forall k :: 1 <= k < |r| ==> r[k] == rest[k - 1];
  }

  /** Lower-casing commutes with cutting out the stripped middle, and the middle
      of the lower-cased token is the middle of the token. */
  lemma LowerStrippedAt(word: string, i: int, j: int)
    requires StrippedAt(ToLower(word), i, j)
    ensures StrippedAt(word, i, j)
    ensures ToLower(word)[i..j] == ToLower(word[i..j])
  {
  }

  /** The bounds of the stripped middle are determined by the string. */
  lemma StrippedAtUnique(s: string, i: int, j: int, i': int, j': int)
    requires StrippedAt(s, i, j) && StrippedAt(s, i', j')
    ensures i == i' && j == j'
  {
  }

  /** Lower-casing then stripping, as `addWord` does, is stripping then
      lower-casing: both throw on the same tokens, and otherwise the stored word
      is the lower-cased result of `removePunc` on the raw token. */
  lemma {:induction false} NormalizeCommutes(word: string)
    ensures Normalize(word).Ok? <==> RemovePunc(word).Ok?
    ensures RemovePunc(word).Ok? ==> Normalize(word).value == ToLower(RemovePunc(word).value)
  {
    if RemovePunc(word).Ok? {
      NormalizeMiddle(word);
      var i, j :| StrippedAt(word, i, j) && Normalize(word).value == ToLower(word[i..j]);
      var i', j' :| StrippedAt(word, i', j') && RemovePunc(word).value == word[i'..j'];
      StrippedAtUnique(word, i, j, i', j');
    }
  }

  lemma LowerKeepsWordChars(word: string)
    ensures HasWordChar(ToLower(word)) <==> HasWordChar(word)
  {
    var lower := ToLower(word);
    if HasWordChar(word) {
      var k :| 0 <= k < |word| && !IsPunctuation(word[k]);
      assert !IsPunctuation(lower[k]);
    }
  }

  /** `addWord`: normalise the token and count it once more. */
  function AddWord(g: Generator, word: string): (r: Result<Generator>)
    ensures r.Fail? <==> !HasWordChar(word)
    ensures r.Fail? ==> r.error == StringIndexOutOfBounds
    ensures r.Ok? ==> Normalize(word).Ok?
    ensures r.Ok? ==> Count(r.value.words, Normalize(word).value) == Count(g.words, Normalize(word).value) + 1
    ensures r.Ok? ==> forall y :: y != Normalize(word).value ==> Count(r.value.words, y) == Count(g.words, y)
    ensures r.Ok? && Valid(g.words) ==> Valid(r.value.words) && Total(r.value.words) == Total(g.words) + 1
  {
    match Normalize(word)
    case Fail(e) => Fail(e)
    case Ok(w) => Ok(Generator(AddSingle(g.words, w)))
  }

  /** How many of `words` normalise to `x`. */
  function Occurrences(words: seq<string>, x: string): nat {
    if words == [] then 0
    else (if Normalize(words[0]) == Ok(x) then 1 else 0) + Occurrences(words[1..], x)
  }

  predicate AllWordLike(words: seq<string>) {
    forall i :: 0 <= i < |words| ==> HasWordChar(words[i])
  }

  /** Every stored word is clean, lower-case and free of whitespace. */
  predicate NormalKeys(d: Dist) {
    forall x :: x in d.counts ==> Clean(x) && NoUpper(x) && NoWhitespace(x)
  }

  /** `addWord` on each token in turn; the first token that cannot be stripped
      throws and abandons the rest. */
  function AddWords(g: Generator, words: seq<string>): (r: Result<Generator>)
    ensures r.Ok? <==> AllWordLike(words)
    ensures r.Fail? ==> r.error == StringIndexOutOfBounds
    ensures r.Ok? ==> forall x :: Count(r.value.words, x) == Count(g.words, x) + Occurrences(words, x)
    ensures r.Ok? ==> forall x :: x in r.value.words.counts <==> x in g.words.counts || Occurrences(words, x) > 0
    ensures r.Ok? && Valid(g.words) ==> Valid(r.value.words) && Total(r.value.words) == Total(g.words) + |words|
    decreases |words|
  {
    if words == [] then Ok(g)
    else
      match AddWord(g, words[0])
      case Fail(e) => Fail(e)
      case Ok(h) =>
        AllWordLikeTail(words);
        var r := AddWords(h, words[1..]);
        if r.Ok? then
          AddWordsStep(g, words, h, r.value);
          r
        else
          r
  }

  /** One token folded in ahead of the rest: what the rest adds on top of the
      first token's model is what the whole sequence adds on top of `g`. */
  lemma AddWordsStep(g: Generator, words: seq<string>, h: Generator, r: Generator)
    requires words != [] && AddWord(g, words[0]) == Ok(h)
    requires forall x :: Count(r.words, x) == Count(h.words, x) + Occurrences(words[1..], x)
    requires forall x :: x in r.words.counts <==> x in h.words.counts || Occurrences(words[1..], x) > 0
    requires Valid(h.words) ==> Valid(r.words) && Total(r.words) == Total(h.words) + |words| - 1
    ensures forall x :: Count(r.words, x) == Count(g.words, x) + Occurrences(words, x)
    ensures forall x :: x in r.words.counts <==> x in g.words.counts || Occurrences(words, x) > 0
    ensures Valid(g.words) ==> Valid(r.words) && Total(r.words) == Total(g.words) + |words|
  {
    var w := Normalize(words[0]).value;
    assert h.words == AddSingle(g.words, w);
    AddWordsStepCounts(g, words, h, r);
    AddWordsStepKeys(g, words, h, r);
  }

  lemma AddWordsStepCounts(g: Generator, words: seq<string>, h: Generator, r: Generator)
    requires words != [] && Normalize(words[0]).Ok?
    requires h.words == AddSingle(g.words, Normalize(words[0]).value)
    requires forall x :: Count(r.words, x) == Count(h.words, x) + Occurrences(words[1..], x)
    ensures forall x :: Count(r.words, x) == Count(g.words, x) + Occurrences(words, x)
  {
  }

  lemma AddWordsStepKeys(g: Generator, words: seq<string>, h: Generator, r: Generator)
    requires words != [] && Normalize(words[0]).Ok?
    requires h.words == AddSingle(g.words, Normalize(words[0]).value)
    requires forall x :: x in r.words.counts <==> x in h.words.counts || Occurrences(words[1..], x) > 0
    ensures forall x :: x in r.words.counts <==> x in g.words.counts || Occurrences(words, x) > 0
  {
    var w := Normalize(words[0]).value;
    assert forall x :: x in h.words.counts <==> x in g.words.counts || x == w;
  }

  lemma AllWordLikeTail(words: seq<string>)
    requires words != []
    ensures AllWordLike(words) <==> HasWordChar(words[0]) && AllWordLike(words[1..])
  {
    if HasWordChar(words[0]) && AllWordLike(words[1..]) {
      forall i | 0 <= i < |words| ensures HasWordChar(words[i]) {
        if i > 0 {
          assert words[i] == words[1..][i - 1];
        }
      }
    }
  }

  /** Words fed from whitespace-free tokens keep the stored keys normalised. */
  lemma {:induction false} AddWordsNormalKeys(g: Generator, words: seq<string>)
    requires NormalKeys(g.words)
    requires forall p :: p in words ==> NoWhitespace(p)
    requires AddWords(g, words).Ok?
    ensures NormalKeys(AddWords(g, words).value.words)
    decreases |words|
  {
    if words != [] {
      var h := AddWord(g, words[0]).value;
      assert words[0] in words;
      assert NormalKeys(h.words);
      AddWordsNormalKeys(h, words[1..]);
    }
  }

  /** `new RandomFile(String)`: one `addWord` per piece of `split("\\s")`. */
  function FromText(input: string): (r: Result<Generator>)
    ensures r.Ok? <==> AllWordLike(Split(input))
    ensures r.Fail? ==> r.error == StringIndexOutOfBounds
    ensures r.Ok? ==> forall x :: Count(r.value.words, x) == Occurrences(Split(input), x)
    ensures r.Ok? ==> forall x :: x in r.value.words.counts <==> Occurrences(Split(input), x) > 0
    ensures r.Ok? ==> Valid(r.value.words) && Total(r.value.words) == |Split(input)|
    ensures r.Ok? ==> NormalKeys(r.value.words)
  {
    var r := AddWords(Generator(Empty()), Split(input));
    if r.Ok? then
      AddWordsNormalKeys(Generator(Empty()), Split(input));
      r
    else
      r
  }
}

=== FILE: results.dfy ===
/**
  The two run-time exceptions the modelled code can raise, and a result type that
  carries either a value or the exception that ended the computation.
 */
module Results {

  /** `StringIndexOutOfBoundsException` from `charAt`, and
      `UnsupportedOperationException` from adding to a map's key-set view. */
  datatype Exception = StringIndexOutOfBounds | UnsupportedOperation

  datatype Result<T> = Ok(value: T) | Fail(error: Exception)
}

=== FILE: scenarios.dfy ===
/**
  Lemmas about the model on fixed texts.
 */
module Scenarios {
  import opened Results
  import opened StringDistribution
  import opened RandomFile
  import opened DistributionLaws

  /** Three plain words separated by single spaces split into those words. */
  lemma SplitThreeWords(a: string, b: string, c: string)
    requires Clean(a) && Clean(b) && Clean(c)
    requires NoWhitespace(a) && NoWhitespace(b) && NoWhitespace(c)
    ensures Split(a + " " + b + " " + c) == [a, b, c]
  {
    var s := a + " " + b + " " + c;
    assert JoinSpaces([a, b, c]) == s by {
      assert [a, b, c][1..] == [b, c];
      assert [b, c][1..] == [c];
      assert JoinSpaces([b, c]) == b + " " + c;
      assert a + " " + (b + " " + c) == s;
    }
    SplitOfJoin([a, b, c]);
  }

  /** A lower-case word without punctuation normalises to itself. */
  lemma NormalizePlain(w: string)
    requires Clean(w) && forall k :: 0 <= k < |w| ==> 'a' <= w[k] <= 'z'
    ensures Normalize(w) == Ok(w)
  {
    NormalizeCommutes(w);
    RemovePuncClean(w);
    ToLowerFixesNoUpper(w);
  }

  lemma SplitCatDogCat()
    ensures Split("cat dog cat") == ["cat", "dog", "cat"]
  {
    assert "cat" + " " + "dog" + " " + "cat" == "cat dog cat";
    assert Clean("cat") && Clean("dog");
    SplitThreeWords("cat", "dog", "cat");
  }

  /** Counting over a sequence of pieces, one piece at a time. */
  lemma OccurrencesCons(w: string, rest: seq<string>, x: string)
    ensures Occurrences([w] + rest, x) == (if Normalize(w) == Ok(x) then 1 else 0) + Occurrences(rest, x)
  {
    assert ([w] + rest)[1..] == rest;
  }

  lemma OccurrencesOfTwo(a: string, b: string, x: string)
    ensures Occurrences([a, b], x) ==
              (if Normalize(a) == Ok(x) then 1 else 0) + (if Normalize(b) == Ok(x) then 1 else 0)
  {
    OccurrencesCons(b, [], x);
    OccurrencesCons(a, [b], x);
    assert [b] + [] == [b] && [a] + [b] == [a, b];
  }

  lemma OccurrencesOfThree(a: string, b: string, x: string)
    ensures Occurrences([a, b, a], x) ==
              2 * (if Normalize(a) == Ok(x) then 1 else 0) + (if Normalize(b) == Ok(x) then 1 else 0)
  {
    OccurrencesOfTwo(b, a, x);
    OccurrencesCons(a, [b, a], x);
    assert [a] + [b, a] == [a, b, a];
  }

  /** Three plain pieces `a`, `b`, `a` with `a != b`. */
  lemma ThreePlainOccurrences(a: string, b: string, x: string)
    requires Normalize(a) == Ok(a) && Normalize(b) == Ok(b) && a != b
    ensures AllWordLike([a, b, a])
    ensures Occurrences([a, b, a], x) == (if x == a then 2 else if x == b then 1 else 0)
  {
    PlainWordLike(a, b);
    assert (Normalize(a) == Ok(x)) == (x == a) && (Normalize(b) == Ok(x)) == (x == b);
    OccurrencesOfThree(a, b, x);
  }

  /** Pieces that normalise at all are word-like. */
  lemma PlainWordLike(a: string, b: string)
    requires Normalize(a).Ok? && Normalize(b).Ok?
    ensures AllWordLike([a, b]) && AllWordLike([a, b, a])
  {
    var ws, vs := [a, b], [a, b, a];
    assert HasWordChar(a) && HasWordChar(b);
    assert forall i :: 0 <= i < |ws| ==> ws[i] == a || ws[i] == b;
    assert forall i :: 0 <= i < |vs| ==> vs[i] == a || vs[i] == b;
  }

  /** "cat" and "dog" normalise to themselves. */
  lemma PlainCatDog()
    ensures Normalize("cat") == Ok("cat") && Normalize("dog") == Ok("dog")
    ensures "cat" != "dog"
  {
    NormalizePlain("cat");
    NormalizePlain("dog");
    assert "cat"[0] != "dog"[0];
  }

  /** The pieces of "cat dog cat" normalise to themselves. */
  lemma CatDogCatOccurrences(x: string)
    ensures AllWordLike(["cat", "dog", "cat"])
    ensures Occurrences(["cat", "dog", "cat"], x) ==
              (if x == "cat" then 2 else if x == "dog" then 1 else 0)
  {
    PlainCatDog();
    ThreePlainOccurrences("cat", "dog", x);
  }

  /** Any text whose pieces are "cat", "dog", "cat" builds the same model. */
  lemma CatDogCatModel(input: string)
    requires Split(input) == ["cat", "dog", "cat"]
    ensures var r := FromText(input);
            && r.Ok?
            && Count(r.value.words, "cat") == 2
            && Count(r.value.words, "dog") == 1
            && Total(r.value.words) == 3
  {
    CatDogCatOccurrences("cat");
    CatDogCatOccurrences("dog");
  }

  lemma CatDogCatSpace(input: string)
    requires Split(input) == ["cat", "dog", "cat"]
    ensures FromText(input).Ok?
    ensures SampleSpace(FromText(input).value.words) == {"cat", "dog"}
  {
    CatDogCatOccurrences("cat");
    CatDogCatOccurrences("dog");
    var d := FromText(input).value.words;
    forall x | x in d.counts ensures x == "cat" || x == "dog" {
      CatDogCatOccurrences(x);
    }
  }

  /** The text "cat dog cat": two outcomes, "cat" seen twice, three in all. */
  lemma CatDogCat()
    ensures var r := FromText("cat dog cat");
            && r.Ok?
            && Count(r.value.words, "cat") == 2
            && Count(r.value.words, "dog") == 1
            && SampleSpace(r.value.words) == {"cat", "dog"}
            && Total(r.value.words) == 3
  {
    SplitCatDogCat();
    CatDogCatModel("cat dog cat");
    CatDogCatSpace("cat dog cat");
  }

  lemma SplitTwoTexts()
    ensures Split("a b") == ["a", "b"]
    ensures Split("b c") == ["b", "c"]
  {
    assert ["a", "b"][1..] == ["a"][..0] + ["b"];
    assert JoinSpaces(["a", "b"]) == "a b";
    assert JoinSpaces(["b", "c"]) == "b c";
    SplitOfJoin(["a", "b"]);
    SplitOfJoin(["b", "c"]);
  }

  /** Two plain pieces `a`, `b` with `a != b`. */
  lemma TwoPlainOccurrences(a: string, b: string, x: string)
    requires Normalize(a) == Ok(a) && Normalize(b) == Ok(b) && a != b
    ensures AllWordLike([a, b])
    ensures Occurrences([a, b], x) == (if x == a || x == b then 1 else 0)
  {
    PlainWordLike(a, b);
    assert (Normalize(a) == Ok(x)) == (x == a) && (Normalize(b) == Ok(x)) == (x == b);
    OccurrencesOfTwo(a, b, x);
  }

  /** A one-letter lower-case word normalises to itself. */
  lemma PlainLetter(c: char)
    requires 'a' <= c <= 'z'
    ensures Normalize([c]) == Ok([c])
  {
    NormalizePlain([c]);
  }

  lemma PlainLetters()
    ensures Normalize("a") == Ok("a") && Normalize("b") == Ok("b") && Normalize("c") == Ok("c")
    ensures "a" != "b" && "b" != "c"
  {
    PlainLetter('a');
    PlainLetter('b');
    PlainLetter('c');
    assert "a"[0] != "b"[0] && "b"[0] != "c"[0];
  }

  lemma TwoTextOccurrences(x: string)
    ensures AllWordLike(["a", "b"]) && AllWordLike(["b", "c"])
    ensures Occurrences(["a", "b"], x) == (if x == "a" || x == "b" then 1 else 0)
    ensures Occurrences(["b", "c"], x) == (if x == "b" || x == "c" then 1 else 0)
  {
    PlainLetters();
    TwoPlainOccurrences("a", "b", x);
    TwoPlainOccurrences("b", "c", x);
  }

  lemma ModelOfAB(s1: string)
    requires Split(s1) == ["a", "b"]
    ensures FromText(s1).Ok?
    ensures var d := FromText(s1).value.words;
            Count(d, "a") == 1 && Count(d, "b") == 1 && Count(d, "c") == 0 && Total(d) == 2
  {
    TwoTextOccurrences("a");
    TwoTextOccurrences("b");
    TwoTextOccurrences("c");
  }

  lemma ModelOfBC(s2: string)
    requires Split(s2) == ["b", "c"]
    ensures FromText(s2).Ok?
    ensures var d := FromText(s2).value.words;
            Count(d, "a") == 0 && Count(d, "b") == 1 && Count(d, "c") == 1 && Total(d) == 2
  {
    TwoTextOccurrences("a");
    TwoTextOccurrences("b");
    TwoTextOccurrences("c");
  }

  /** Pooling one observation each of "a" and "b" with one each of "b" and "c". */
  lemma CombinePooled(d1: Dist, d2: Dist)
    requires Valid(d1) && Count(d1, "a") == 1 && Count(d1, "b") == 1 && Count(d1, "c") == 0 && Total(d1) == 2
    requires Valid(d2) && Count(d2, "a") == 0 && Count(d2, "b") == 1 && Count(d2, "c") == 1 && Total(d2) == 2
    ensures var m := Combine(d1, d2);
            && Count(m, "a") == 1 && Count(m, "b") == 2 && Count(m, "c") == 1
            && Total(m) == 4
  {
  }

  /** Combining the models of "a b" and "b c": "b" twice, four in all. */
  lemma CombineTwoTexts()
    ensures FromText("a b").Ok? && FromText("b c").Ok?
    ensures var m := Combine(FromText("a b").value.words, FromText("b c").value.words);
            && Count(m, "a") == 1 && Count(m, "b") == 2 && Count(m, "c") == 1
            && Total(m) == 4
  {
    SplitTwoTexts();
    ModelOfAB("a b");
    ModelOfBC("b c");
    CombinePooled(FromText("a b").value.words, FromText("b c").value.words);
  }
}
